=== FILE: README.md ===
# skpttr tracking core in Dafny

The model covers the core of skpttr, a service that tracks campaign clicks and sales reported
by the owner's bot and forwards sales to the UTMify attribution platform. It models:

- the public tracking endpoint `GET /track` (`Track`). It validates the query and resolves the
  active link by bot id, token and campaign. It then records a click, optionally records a
  sale, forwards the sale to UTMify and stores the delivery outcome on the sale row;
- the UTMify client (`Utmify`). `sendToUtmify` builds the sales payload and the authenticated
  POST. `testUtmifyConnection` builds the health probe. Each turns the transport's answer
  into a success or failure object;
- the authenticated link routes under `/api/tracking` (`TrackingRoutes`): create, list with
  pagination, delete, toggle, and per-link statistics;
- the last error middleware (`ErrorHandler`) and the authentication middlewares
  `authenticateToken` / `optionalAuth` (`Auth`);
- the frontend's Redux slices `tracking` (`TrackingSlice`) and `reports` (`ReportsSlice`).
  Each is modelled as a pure reducer `State x Action -> State`.

The database is an immutable value `Schema.Db`. It holds a users map, a sequence of link rows
and a sequence of event rows, each kept in insertion order. A route is a function from the
database and its inputs to a response and the new database. Everything the code obtains from
outside becomes a parameter:

- whether a query fails;
- the result of `parseFloat`, with `None` for `NaN`;
- the HTTP reply;
- the JWT verification result;
- the generated token and the new row id;
- the clock reading;
- the environment variables.

Shared definitions live in `Common`: `Option`, a JSON value type `JsVal` with JavaScript
truthiness, and `Filter` / `Count` / `Sum` / `Reverse` with their concatenation lemmas.

The model follows the code in two places where one might expect otherwise:

- The sale-outcome update can fail. So can the fallback update in the `catch` block. When
  both fail, the endpoint answers 500 even though the click and sale rows are already
  stored.
- The outcome is written to the newest sale row of the link, not to a row identified by
  its id. Within one sequential request that row is the sale row just inserted
  (`Track.NewestSaleIsLastAppended`).

## Model

| member | source | states |
|---|---|---|
| Common.OptStr | backend/src/middleware/errorHandler.js:10 | a missing or empty message becomes a falsy JSON value, a non-empty one a truthy string |
| Common.Filter | frontend/src/store/slices/trackingSlice.js:99 | the kept rows are exactly the input rows satisfying the predicate, and there are no more of them than input rows |
| Common.Count | backend/src/routes/tracking.js:62-67 | the count is at most the number of rows, and it is zero exactly when no row satisfies the predicate |
| Common.FilterConcat | frontend/src/store/slices/trackingSlice.js:99 | filtering a concatenation filters each part, keeping their order |
| Common.CountConcat | backend/src/routes/tracking.js:173-181 | counting over a concatenation adds the counts of the parts |
| Common.FilterLength | backend/src/routes/tracking.js:52-67 | the filtered rows number exactly as many as the count, so a page total agrees with the rows listed |
| Common.FilterKeepsAll | frontend/src/store/slices/trackingSlice.js:99 | a filter that every row passes changes nothing |
| Common.FilterIdempotent | frontend/src/store/slices/trackingSlice.js:99 | filtering twice by the same predicate is filtering once |
| Common.Reverse | backend/src/routes/tracking.js:56 | newest-first order: same length, position i holds the row at the mirrored position, and the same members |
| Common.CountSingle | backend/src/routes/tracking.js:106 | when exactly one row satisfies the predicate, the count is one |
| Common.SumConcat | backend/src/routes/tracking.js:177 | a sum over a concatenation adds the sums of the parts |
| Utmify.Payload | backend/src/services/utmify.js:13-20 | the payload has exactly the six fields in order, each copied from the input object or undefined when absent |
| Utmify.SendToUtmify | backend/src/services/utmify.js:4-37 | success iff the URL and key are configured and the POST resolved. Unconfigured means no request and the configuration error. Otherwise the request is a POST to the sales path with a Bearer key, a JSON content type, a 10-second timeout and the payload, and the outcome mirrors the reply |
| Utmify.TestConnection | backend/src/services/utmify.js:40-59 | unconfigured means no request and the configuration error. Otherwise the request is a GET of the health path with a Bearer key and a 5-second timeout. Reachable iff the GET resolved, with its status |
| Utmify.UnconfiguredIgnoresTransport | backend/src/services/utmify.js:9-11 | without configuration nothing is sent, whatever the network would have answered |
| Utmify.PayloadIgnoresExtraFields | backend/src/services/utmify.js:13-20 | fields other than the six payload keys never reach UTMify |
| Utmify.ProbeAgreesWithSend | backend/src/services/utmify.js:4-59 | given the same configuration and reply, the probe issues a request iff the sale sender does, and reaches the platform iff the sale is delivered |
| Track.Resolve | backend/src/routes/track.js:19-33 | a link is found iff some row matches bot id, token and campaign, is active and has an existing owner. The row found is such a row and carries its owner's bot token |
| Track.ClickRow | backend/src/routes/track.js:37-41 | the click row names the link, its owner, the campaign and the client's address and agent, has no amount, is not a sale, and starts pending with no diagnostic |
| Track.SaleRow | backend/src/routes/track.js:56-60 | the sale row is a sale of the link carrying the amount, and differs from the click row only in its type and amount |
| Track.ForwardData | backend/src/routes/track.js:64-71 | the forwarded object has exactly the six keys the UTMify payload reads, so none is undefined. The payload carries the bot id, the amount, the campaign and the time, and the user token is null iff the owner has no bot token |
| Track.NewestSale | backend/src/routes/track.js:77-83 | the position found holds a sale of the link, and no later row is one. None iff the link has no sale row |
| Track.WriteOutcome | backend/src/routes/track.js:77-83 | only the newest sale row of the link changes, and only its delivery status and diagnostic |
| Track.NewestSaleIsLastAppended | backend/src/routes/track.js:57-83 | after a sale row is appended, the update targets exactly that row |
| Track.ForwardSale | backend/src/routes/track.js:63-114 | 500 iff both the outcome update and the fallback update fail. Otherwise 200 with the sale row no longer pending, and completed iff the update succeeded and UTMify accepted the sale. The stored response is the forwarder's outcome as JSON, or `{error: message}` when the first update threw |
| Track.RecordEvents | backend/src/routes/track.js:37-114 | a failed click insert gives 500 with nothing written. Otherwise the click row is appended first. Without a sale value the answer is a 200 click. An unparsable or non-positive amount gives 400 after the click only. A valid amount appends the sale row and forwards the six UTMify fields. A failed sale insert gives 500. After a stored sale, the result is exactly the forwarding step `Track.ForwardSale` on the database holding the click and the sale row, so the outcome status, the stored diagnostic and the 500 when both updates throw carry over |
| Track.Handle | backend/src/routes/track.js:5-122 | users and links never change and earlier events are kept. An incomplete query gives 400 without a lookup. A failed lookup gives 500, and an unresolvable link gives 404 with nothing written. A 200 names the campaign and is a sale iff a sale value was given: a click adds one row, a sale two, with the sale not pending. Once the link resolves, the result is exactly `Track.RecordEvents` for that link: a failed click insert gives 500 with nothing written, an invalid amount 400 with only the click stored, and a stored sale is completed iff the update succeeded and UTMify accepted it |
| TrackingRoutes.TrackingUrl | backend/src/routes/tracking.js:22 | the URL starts with the base URL (or the default host) followed by `/track?bot_id=` and the bot id, and ends with `&campaign=` and the campaign |
| TrackingRoutes.TrackingUrlInjective | backend/src/routes/tracking.js:22 | for '&'-free bot ids and tokens, equal tracking URLs have equal bot id, token and campaign |
| TrackingRoutes.CreateLink | backend/src/routes/tracking.js:9-42 | a missing campaign gives 400 with nothing written. 201 iff the campaign is present, the owner has a bot id, the owner exists, the id is fresh and the insert succeeds. The new active row carries the URL built from base, bot id, token and campaign and is appended. Link ids stay unique. With a campaign present, every answer other than 201 is 500 with the internal-error message and nothing written |
| TrackingRoutes.CreatedLinkIsTrackable | backend/src/routes/tracking.js:22-30 | a link just created resolves through its own parameters, and the tracking endpoint answers a click on it with 200 |
| TrackingRoutes.CeilDiv | backend/src/routes/tracking.js:68 | the page count is the least number of pages of the given size that hold the total |
| TrackingRoutes.Window | backend/src/routes/tracking.js:52-59 | LIMIT/OFFSET: at most `limit` rows, being the rows starting at `offset`, in order |
| TrackingRoutes.OwnedNewestFirst | backend/src/routes/tracking.js:52-59 | exactly the user's links, as many rows as the user owns |
| TrackingRoutes.NewestLinkListedFirst | backend/src/routes/tracking.js:52-57 | newest first: the link inserted last heads its owner's list and does not appear in anyone else's, and with no links the list is empty |
| Common.ReverseAppend | backend/src/routes/tracking.js:56 | a row appended last comes first in descending order |
| TrackingRoutes.ListLinks | backend/src/routes/tracking.js:45-87 | 200 iff the queries succeed and the limit and offset are non-negative. The total is the number of the user's links, and the page is the window of them newest first. The page count is absent iff the limit is zero, and otherwise bounds the total from above within one page |
| TrackingRoutes.PageNonEmptyIffWithinPageCount | backend/src/routes/tracking.js:48-68 | a page of a positive size has rows iff its number is between 1 and the page count |
| TrackingRoutes.FindOwned | backend/src/routes/tracking.js:96-99 | a row is found iff the user owns a row with that id, and it is the first such row |
| TrackingRoutes.DeleteLink | backend/src/routes/tracking.js:90-117 | a failed query or a link the user does not own leaves the database unchanged (500 / 404). 200 iff owned, and then the link rows are the old ones, in order, without the owned rows with that id, and the events are the cascade of that link. The link's own events go with it, the event count drops by exactly their number, and every other link keeps its statistics |
| TrackingRoutes.CascadeEvents | backend/src/config/database.js:93 | `ON DELETE CASCADE`: exactly the deleted link's events go, the count drops by their number, and every other link's statistics are unchanged |
| TrackingRoutes.CascadeAppend | backend/src/config/database.js:93 | row by row: an empty table stays empty, and an appended row survives in last position exactly when it belongs to another link, which fixes the survivors' order and multiplicity |
| TrackingRoutes.OtherStatsSurviveCascade | backend/src/config/database.js:93 | removing one link's events leaves every other link's event count, sale count and sale total as they were |
| Common.CountFilterAgrees | backend/src/config/database.js:93 | dropping only rows a predicate rejects leaves that predicate's count unchanged |
| Common.SumFilterAgrees | backend/src/config/database.js:93 | dropping only rows contributing zero leaves a sum unchanged |
| TrackingRoutes.DeleteRemovesOneRow | backend/src/routes/tracking.js:106 | with unique link ids a successful delete removes exactly one link row |
| TrackingRoutes.SetActive | backend/src/routes/tracking.js:139-142 | only the user's rows with that id change, and only their active flag |
| TrackingRoutes.ToggleLink | backend/src/routes/tracking.js:120-154 | 404 and 500 leave the database unchanged. 200 iff owned, and then the flag is negated on that row alone and the message and returned flag name the new status |
| TrackingRoutes.ToggleTwiceRestores | backend/src/routes/tracking.js:135-142 | toggling an owned link twice restores the database |
| TrackingRoutes.StatsRoute | backend/src/routes/tracking.js:157-203 | 404 unless the user owns the link. On 200 the link reported is the owned row, and the statistics are that link's event count, sale count and sale total over all event rows, with sales no more than events |
| TrackingRoutes.LinkStats | backend/src/routes/tracking.js:173-181 | the event count is zero iff no event row belongs to the link, the sale count is zero iff none of them is a sale, and the event count never exceeds the number of rows |
| TrackingRoutes.SalesAmongEvents | backend/src/routes/tracking.js:173-181 | the number of sales of a link never exceeds the number of its events |
| TrackingRoutes.StatsAfterClickAndSale | backend/src/routes/tracking.js:173-181 | a click and a sale of a link appended to the events add two events, one sale and the sale's amount to the link's statistics |
| TrackingRoutes.SaleShowsInStats | backend/src/routes/tracking.js:173-181 | after the tracking endpoint records a sale, the link's statistics gain two events, one sale and the sale's amount |
| ErrorHandler.Handle | backend/src/middleware/errorHandler.js:2-62 | success is always false. Names decide first: ValidationError gives 400 with the details (or message) under errors, and the two JWT names give 401. Then codes: 23505 gives 409, 23503 gives 400, ECONNREFUSED gives 503. Otherwise the status is the error's non-zero status code or 500. The message is generic in production, and the stack appears only in development |
| ErrorHandler.NameBeforeCode | backend/src/middleware/errorHandler.js:6-51 | for a recognised name, the error's code has no influence on the response |
| ErrorHandler.ProductionHidesInternals | backend/src/middleware/errorHandler.js:54-61 | in production the message is one of the handler's fixed texts and no stack is sent |
| ErrorHandler.StackOnlyInDevelopment | backend/src/middleware/errorHandler.js:60 | a stack is sent only in development, and there for every unrecognised error |
| Auth.Split | backend/src/middleware/auth.js:8 | `split(' ')`: at least one piece, no piece contains a space, and the pieces joined with spaces give the header back |
| Auth.SplitUnique | backend/src/middleware/auth.js:8 | any space-free pieces that join to a string are exactly what splitting it gives |
| Auth.SplitOfSeparatorFree | backend/src/middleware/auth.js:8 | a string without spaces splits into itself alone |
| Auth.BearerToken | backend/src/middleware/auth.js:7-8 | a token is only taken from a present header, and it is non-empty and space-free |
| Auth.SchemeIsNotChecked | backend/src/middleware/auth.js:8 | any first word followed by a space and a token yields that token, whether or not the word is "Bearer" |
| Auth.TokenIsSecondWord | backend/src/middleware/auth.js:8 | a token found is the word after the first space, followed by nothing or another space |
| Auth.OneWordHeaderHasNoToken | backend/src/middleware/auth.js:8-15 | a header without a space carries no token |
| Auth.ErrorResponse | backend/src/middleware/auth.js:37-55 | the two JWT error names give 401 with their own messages, and anything else gives 500 |
| Auth.Authenticate | backend/src/middleware/auth.js:5-57 | no token gives 401 "token required". The request passes iff the token verifies, the lookup succeeds and the user exists, with that user's row attached. Verification errors and a failing user lookup answer by the error's name (401 for the JWT names, 500 otherwise), and an unknown user gives 401 |
| Auth.OptionalAuth | backend/src/middleware/auth.js:60-82 | never answers, and attaches a user exactly when authenticateToken would let the request through, the same user |
| Auth.TokenErrorsAgreeWithErrorHandler | backend/src/middleware/auth.js:37-49 | for the two JWT error names, the middleware and the error handler give the same status and message |
| TrackingSlice.Initial | frontend/src/store/slices/trackingSlice.js:52-58 | no links, nothing loading, no errors |
| TrackingSlice.FindIndex | frontend/src/store/slices/trackingSlice.js:102 | the index found holds the id with no earlier occurrence. None iff the id is absent |
| TrackingSlice.Reduce | frontend/src/store/slices/trackingSlice.js:63-106 | per action. The clear actions reset errors. Pending sets its loading flag and clears its error, and rejected stores the payload. A created link goes in front. Fetch replaces the list. Delete keeps exactly the other ids. Toggle replaces the first link with that id and nothing else. Other actions change nothing |
| TrackingSlice.DeleteKeepsOrder | frontend/src/store/slices/trackingSlice.js:98-100 | deleting from a list split in two deletes from each part, so the survivors keep their order |
| TrackingSlice.DeleteIdempotent | frontend/src/store/slices/trackingSlice.js:98-100 | deleting an id twice is deleting it once |
| TrackingSlice.CreateThenDeleteRestoresLinks | frontend/src/store/slices/trackingSlice.js:78-100 | deleting a freshly created link restores the previous list |
| TrackingSlice.ToggleIdempotent | frontend/src/store/slices/trackingSlice.js:101-106 | applying the same toggle result twice is applying it once |
| TrackingSlice.ClearErrorAbsorbsClearCreateError | frontend/src/store/slices/trackingSlice.js:64-70 | clearing the create error before clearing all errors adds nothing |
| ReportsSlice.StateIsItsReports | frontend/src/store/slices/reportsSlice.js:40-50 | two states with the same three reports are equal |
| ReportsSlice.Initial | frontend/src/store/slices/reportsSlice.js:40-50 | nothing loading, no errors, no dashboard, and empty campaign and sales lists |
| ReportsSlice.Reduce | frontend/src/store/slices/reportsSlice.js:56-100 | clearError clears all three errors. Pending, fulfilled and rejected act on their report as a loading cycle and leave the other two reports untouched. Other actions change nothing |
| ReportsSlice.FetchCycleSucceeds | frontend/src/store/slices/reportsSlice.js:64-99 | pending then fulfilled leaves the report loaded with the new data and no error, and the others untouched |
| ReportsSlice.FetchCycleFails | frontend/src/store/slices/reportsSlice.js:64-99 | pending then rejected keeps the report's old data and records the error |
| ReportsSlice.DifferentReportsCommute | frontend/src/store/slices/reportsSlice.js:62-100 | actions on different reports commute |

## Left out

- Database access, the connection pool and SQL text are not modelled. Each query is a total
  function on `Schema.Db`, plus a boolean saying whether the query throws.
- The outcome update uses `UPDATE ... ORDER BY ... LIMIT 1`, which PostgreSQL rejects. Whether
  it throws is an input (`outcomeUpdateError`), so both the accepted and the rejected case are
  covered.
- Concurrent requests are not modelled. Under interleaving, "newest sale row of the link" can
  be another request's row. The model is sequential.
- Track.Handle: `parseFloat` is an input returning a real or NaN. Infinity, float rounding and
  the DECIMAL(10,2) rounding of stored amounts are not modelled. Query parameters are taken as
  strings or absent. Express can also hand over arrays, which are truthy and pass the checks at
  backend/src/routes/track.js:12 and :46; those are not modelled.
- Track.Resolve: the link query has no `ORDER BY` and nothing makes the (bot id, token,
  campaign) triple unique, so with several matches the database may return any of them. The
  model picks the earliest inserted match. The contract promises only that the row found
  matches.
- TrackingRoutes.StatsRoute: does not state the `conversion_rate` field, because it is a
  floating-point `toFixed(2)` string. The counts and the sum of amounts are stated.
- TrackingRoutes.CreateLink, TrackingRoutes.ListLinks, TrackingRoutes.StatsRoute: the
  response bodies carry the whole `Link` row. The routes select only some columns: create
  returns id, campaign_id, campaign_name, tracking_url and created_at; list adds is_active; stats
  returns id, campaign_id and campaign_name (backend/src/routes/tracking.js:28, :53, :164).
  `created_at` is not modelled at all, because row order stands for it.
- TrackingRoutes.DeleteLink, TrackingRoutes.ToggleLink, TrackingRoutes.StatsRoute: the `:id`
  path parameter is taken as an integer. In the program it is a string. A non-numeric one makes
  the database throw, so the route answers 500. The model reaches that answer only through its
  query-failure input.
- TrackingRoutes.CreateLink: `campaign_id` is taken as a string or absent. The JSON body can
  carry any value: a falsy one such as `0` or `false` gives 400 like a missing one, and a number
  is stored as its text. Non-string values are not modelled.
- TrackingRoutes.ListLinks: `page` and `limit` are taken as already-coerced integers, with
  defaults 1 and 10. JavaScript string-to-number coercion of query strings and array-valued
  query parameters are not modelled.
- TrackingRoutes.CreateLink: an owner without a `bot_id` gets the text `null` in the URL. The
  insert then fails, because the link's `bot_id` column is NOT NULL
  (backend/src/config/database.js:81). Which database error is raised is not modelled. The
  contract states that the route answers 500 with the internal-error message.
- JSON serialisation (`JSON.stringify` of the UTMify outcome) is abstracted as a `JsVal`
  value. Byte-level formatting is not modelled.
- Timestamps: one clock reading `now` stands for every `new Date().toISOString()` in a
  request.
- axios is abstracted as `HttpReply`. `Responded` is a resolved call, and `Rejected` is any
  rejection: a non-2xx status, a timeout or a network error.
- Console logging is not modelled; it has no effect on responses or data.
- The reports routes, the login/registration routes, token encryption, server wiring,
  the frontend pages and the asynchronous thunks are outside this model.
- JWT signing and verification are an input (`verify`). The secret and token expiry are
  not modelled.

=== FILE: auth.dfy ===
/** The authentication middleware: `authenticateToken`, which either attaches the user row
    and passes the request on or answers it, and `optionalAuth`, which never answers.
    Token verification and the user lookup are inputs. */
module Auth {
  import opened Common
  import opened Schema
  import ErrorHandler

  /** What verifying a token gives: the user id it carries, or the name of the error thrown. */
  datatype Verification = Decoded(userId: int) | VerifyThrew(name: string)

  /** `next()` was called with this user attached, or the request was answered. */
  datatype AuthResult = Next(user: UserRow) | Deny(status: int, message: string)

  const TokenRequired: string := "Token de acesso necessário"
  const UserNotFound: string := "Usuário não encontrado"

  /** Pieces joined back with the separator (`Array.prototype.join`). */
  function Join(parts: seq<string>, sep: char): string
    requires |parts| > 0
  {
    if |parts| == 1 then parts[0] else parts[0] + [sep] + Join(parts[1..], sep)
  }

  /** `String.prototype.split` on a one-character separator: the separator-free pieces that
      join back to the input. */
  function Split(s: string, sep: char): (parts: seq<string>)
    ensures |parts| > 0
    ensures forall i :: 0 <= i < |parts| ==> sep !in parts[i]
    ensures Join(parts, sep) == s
  {
    if s == [] then [""]
    else
      var rest := Split(s[1..], sep);
      if s[0] == sep then
        assert [sep] + Join(rest, sep) == s;
        [""] + rest
      else
        var parts := [[s[0]] + rest[0]] + rest[1..];
        assert parts[1..] == rest[1..];
        assert Join(parts, sep) == [s[0]] + Join(rest, sep);
        parts
  }

  /** The decomposition `Split` finds is the only one: any separator-free pieces that join to
      the input are its pieces. */
  lemma {:induction false} SplitUnique(parts: seq<string>, sep: char)
    requires |parts| > 0
    requires forall i :: 0 <= i < |parts| ==> sep !in parts[i]
    ensures Split(Join(parts, sep), sep) == parts
    decreases |Join(parts, sep)|, |parts|
  {
    var s := Join(parts, sep);
    if |parts| == 1 {
      SplitOfSeparatorFree(parts[0], sep);
    } else if parts[0] == [] {
      assert s == [sep] + Join(parts[1..], sep);
      assert s[1..] == Join(parts[1..], sep);
      SplitUnique(parts[1..], sep);
    } else {
      var shorter := [parts[0][1..]] + parts[1..];
      assert shorter[1..] == parts[1..];
      assert forall i :: 1 <= i < |shorter| ==> shorter[i] == parts[i];
      assert parts[0][1..] == shorter[0];
      assert Join(shorter, sep) == parts[0][1..] + [sep] + Join(parts[1..], sep);
      assert s == [parts[0][0]] + Join(shorter, sep);
      assert s[1..] == Join(shorter, sep);
      assert parts[0][0] in parts[0];
      SplitUnique(shorter, sep);
      assert [parts[0][0]] + shorter[0] == parts[0];
    }
  }

  /** A string without the separator is one piece. */
  lemma {:induction false} SplitOfSeparatorFree(s: string, sep: char)
    requires sep !in s
    ensures Split(s, sep) == [s]
  {
    if s != [] {
      assert s[0] in s;
      assert forall c :: c in s[1..] ==> c in s;
      SplitOfSeparatorFree(s[1..], sep);
    }
  }

  /** `authHeader && authHeader.split(' ')[1]`, kept only when truthy. */
  function BearerToken(header: Option<string>): (token: Option<string>)
    ensures token.Some? ==> token.value != "" && ' ' !in token.value
    ensures token.Some? ==> Present(header)
  {
    if !Present(header) then None
    else
      var parts := Split(header.value, ' ');
      if |parts| >= 2 && parts[1] != "" then Some(parts[1]) else None
  }

  /** Whatever the first word is, a header `word + " " + token` carries that token. */
  lemma SchemeIsNotChecked(scheme: string, token: string)
    requires ' ' !in scheme && ' ' !in token && token != ""
    ensures BearerToken(Some(scheme + " " + token)) == Some(token)
  {
    SplitUnique([scheme, token], ' ');
    assert Join([scheme, token], ' ') == scheme + " " + token;
  }

  /** `header` is a space-free first word, a space, the token, and either nothing or more words. */
  predicate SchemeThenToken(header: string, scheme: string, token: string, rest: string) {
    ' ' !in scheme && header == scheme + " " + token + rest && (rest == "" || rest[0] == ' ')
  }

  /** The token is the word between the first space and the next space (or the end). */
  lemma TokenIsSecondWord(header: string)
    requires BearerToken(Some(header)).Some?
    ensures exists scheme, rest :: SchemeThenToken(header, scheme, BearerToken(Some(header)).value, rest)
  {
    var parts := Split(header, ' ');
    var token := parts[1];
    assert BearerToken(Some(header)).value == token;
    var rest := if |parts| == 2 then "" else [' '] + Join(parts[2..], ' ');
    assert parts[1..][1..] == parts[2..];
    assert Join(parts[1..], ' ') == token + rest;
    assert header == parts[0] + " " + token + rest;
    assert SchemeThenToken(header, parts[0], token, rest);
  }

  /** A header with no space in it carries no token. */
  lemma OneWordHeaderHasNoToken(header: string)
    requires ' ' !in header
    ensures BearerToken(Some(header)) == None
  {
    if header != "" {
      SplitOfSeparatorFree(header, ' ');
    }
  }

  /** The answer to an error thrown while authenticating, chosen by the error's name. */
  function ErrorResponse(name: string): (r: AuthResult)
    ensures r.Deny?
    ensures r.status == 401 <==> name == "JsonWebTokenError" || name == "TokenExpiredError"
    ensures r.status != 401 ==> r == Deny(500, InternalError)
  {
    if name == "JsonWebTokenError" then Deny(401, InvalidToken)
    else if name == "TokenExpiredError" then Deny(401, ExpiredToken)
    else Deny(500, InternalError)
  }

  /** `authenticateToken(req, res, next)`. `verify` stands for verifying a token with the
      secret; `users` is the users table; `lookupError` names the error the lookup throws, if any. */
  function Authenticate(header: Option<string>, verify: string -> Verification, users: map<int, UserRow>, lookupError: Option<string>): (r: AuthResult)
    ensures BearerToken(header).None? ==> r == Deny(401, TokenRequired)
    ensures r.Next? <==>
      && BearerToken(header).Some?
      && verify(BearerToken(header).value).Decoded?
      && lookupError.None?
      && verify(BearerToken(header).value).userId in users
    ensures r.Next? ==> r.user == users[verify(BearerToken(header).value).userId]
    ensures r.Deny? ==> r.status in {401, 500}
    ensures BearerToken(header).Some? && verify(BearerToken(header).value).VerifyThrew? ==>
      r == ErrorResponse(verify(BearerToken(header).value).name)
    ensures BearerToken(header).Some? && verify(BearerToken(header).value).Decoded? && lookupError.Some? ==>
      r == ErrorResponse(lookupError.value)
    ensures (BearerToken(header).Some? && verify(BearerToken(header).value).Decoded? && lookupError.None?
             && verify(BearerToken(header).value).userId !in users) ==> r == Deny(401, UserNotFound)
  {
    match BearerToken(header)
    case None => Deny(401, TokenRequired)
    case Some(token) =>
      match verify(token)
      case VerifyThrew(name) => ErrorResponse(name)
      case Decoded(userId) =>
        if lookupError.Some? then ErrorResponse(lookupError.value)
        else if userId !in users then Deny(401, UserNotFound)
        else Next(users[userId])
  }

  /** `optionalAuth(req, res, next)`: never answers; the user it attaches, if any. */
  function OptionalAuth(header: Option<string>, verify: string -> Verification, users: map<int, UserRow>, lookupError: Option<string>): (user: Option<UserRow>)
    ensures user.Some? <==> Authenticate(header, verify, users, lookupError).Next?
    ensures user.Some? ==> user.value == Authenticate(header, verify, users, lookupError).user
  {
    match BearerToken(header)
    case None => None
    case Some(token) =>
      match verify(token)
      case VerifyThrew(_) => None
      case Decoded(userId) =>
        if lookupError.Some? || userId !in users then None else Some(users[userId])
  }

  /** The middleware and the application's error handler answer token errors alike. */
  lemma TokenErrorsAgreeWithErrorHandler(name: string, err: ErrorHandler.Error, nodeEnv: Option<string>)
    requires name == "JsonWebTokenError" || name == "TokenExpiredError"
    requires err.name == Some(name)
    ensures ErrorResponse(name).status == ErrorHandler.Handle(err, nodeEnv).status
    ensures ErrorResponse(name).message == ErrorHandler.Handle(err, nodeEnv).body.message
  {
  }
}

=== FILE: common.dfy ===
/** Values and collection helpers shared by the backend and frontend models. */
module Common {

  /** Response messages that several handlers share. */
  const InternalError: string := "Erro interno do servidor"
  const InvalidToken: string := "Token inválido"
  const ExpiredToken: string := "Token expirado"

  /** An optional value: `None` stands for JavaScript's `undefined` or `null`. */
  datatype Option<+T> = None | Some(value: T)

  /** A JavaScript value as it travels through JSON bodies and Redux payloads.
      NaN and the infinities are not representable. */
  datatype JsVal =
    | JUndefined
    | JNull
    | JBool(b: bool)
    | JNum(n: real)
    | JStr(s: string)
    | JArray(items: seq<JsVal>)
    | JObject(fields: seq<(string, JsVal)>)

  /** JavaScript truthiness: `undefined`, `null`, `false`, `0` and `""` are falsy,
      every array and object is truthy. */
  predicate Truthy(v: JsVal) {
    match v
    case JUndefined => false
    case JNull => false
    case JBool(b) => b
    case JNum(n) => n != 0.0
    case JStr(s) => s != ""
    case JArray(_) => true
    case JObject(_) => true
  }

  /** Truthiness of a value that is either a string or absent: `!x` is false exactly for a non-empty string. */
  predicate Present(s: Option<string>) {
    s.Some? && s.value != ""
  }

  /** An optional string as a JavaScript value (`undefined` when absent). */
  function OptStr(s: Option<string>): (v: JsVal)
    ensures Truthy(v) <==> Present(s)
  {
    match s
    case None => JUndefined
    case Some(x) => JStr(x)
  }

  /** `Array.prototype.filter`: the elements that satisfy `keep`, in their original order. */
  function Filter<T(!new)>(s: seq<T>, keep: T -> bool): (r: seq<T>)
    ensures |r| <= |s|
    ensures forall x :: x in r <==> x in s && keep(x)
  {
    if s == [] then []
    else (if keep(s[0]) then [s[0]] else []) + Filter(s[1..], keep)
  }

  /** The number of elements of `s` that satisfy `p` (a SQL `COUNT` with a `WHERE`). */
  function Count<T>(s: seq<T>, p: T -> bool): (n: nat)
    ensures n <= |s|
    ensures n == 0 <==> forall i :: 0 <= i < |s| ==> !p(s[i])
  {
    if s == [] then 0
    else (if p(s[0]) then 1 else 0) + Count(s[1..], p)
  }

  /** Filtering distributes over concatenation: this is what "keeps the rest in order" means. */
  lemma {:induction false} FilterConcat<T(!new)>(a: seq<T>, b: seq<T>, keep: T -> bool)
    ensures Filter(a + b, keep) == Filter(a, keep) + Filter(b, keep)
  {
    if a == [] {
      assert a + b == b;
    } else {
      assert (a + b)[0] == a[0];
      assert (a + b)[1..] == a[1..] + b;
      FilterConcat(a[1..], b, keep);
    }
  }

  /** Counting distributes over concatenation. */
  lemma {:induction false} CountConcat<T>(a: seq<T>, b: seq<T>, p: T -> bool)
    ensures Count(a + b, p) == Count(a, p) + Count(b, p)
  {
    if a == [] {
      assert a + b == b;
    } else {
      assert (a + b)[0] == a[0];
      assert (a + b)[1..] == a[1..] + b;
      CountConcat(a[1..], b, p);
    }
  }

  /** A filter keeps exactly as many elements as satisfy its predicate. */
  lemma {:induction false} FilterLength<T(!new)>(s: seq<T>, keep: T -> bool)
    ensures |Filter(s, keep)| == Count(s, keep)
  {
    if s != [] {
      FilterLength(s[1..], keep);
    }
  }

  /** Filtering a sequence none of whose elements is dropped gives it back unchanged. */
  lemma {:induction false} FilterKeepsAll<T(!new)>(s: seq<T>, keep: T -> bool)
    requires forall i :: 0 <= i < |s| ==> keep(s[i])
    ensures Filter(s, keep) == s
  {
    if s != [] {
      FilterKeepsAll(s[1..], keep);
    }
  }

  /** Filtering twice with the same predicate is the same as filtering once. */
  lemma {:induction false} FilterIdempotent<T(!new)>(s: seq<T>, keep: T -> bool)
    ensures Filter(Filter(s, keep), keep) == Filter(s, keep)
  {
    var r := Filter(s, keep);
    forall i | 0 <= i < |r|
      ensures keep(r[i])
    {
      assert r[i] in r;
    }
    FilterKeepsAll(r, keep);
  }

  /** Filtering out only elements `p` rejects leaves the count of `p` unchanged. */
  lemma {:induction false} CountFilterAgrees<T(!new)>(s: seq<T>, keep: T -> bool, p: T -> bool)
    requires forall x :: p(x) ==> keep(x)
    ensures Count(Filter(s, keep), p) == Count(s, p)
  {
    if s != [] {
      var head := if keep(s[0]) then [s[0]] else [];
      assert Filter(s, keep) == head + Filter(s[1..], keep);
      CountConcat(head, Filter(s[1..], keep), p);
      CountFilterAgrees(s[1..], keep, p);
    }
  }

  /** The elements of `s` from last to first (`ORDER BY created_at DESC` over insertion order). */
  function Reverse<T(!new)>(s: seq<T>): (r: seq<T>)
    ensures |r| == |s|
    ensures forall i :: 0 <= i < |s| ==> r[i] == s[|s| - 1 - i]
    ensures forall x :: x in r <==> x in s
  {
    if s == [] then [] else Reverse(s[1..]) + [s[0]]
  }

  /** A predicate that holds of exactly one element is counted once. */
  lemma {:induction false} CountSingle<T>(s: seq<T>, p: T -> bool, k: nat)
    requires k < |s| && p(s[k])
    requires forall j :: 0 <= j < |s| && j != k ==> !p(s[j])
    ensures Count(s, p) == 1
  {
    if k == 0 {
      assert forall j :: 0 <= j < |s[1..]| ==> !p(s[1..][j]) by {
        forall j | 0 <= j < |s[1..]|
          ensures !p(s[1..][j])
        {
          assert s[1..][j] == s[j + 1];
        }
      }
    } else {
      assert !p(s[0]);
      forall j | 0 <= j < |s[1..]| && j != k - 1
        ensures !p(s[1..][j])
      {
        assert s[1..][j] == s[j + 1];
      }
      CountSingle(s[1..], p, k - 1);
    }
  }

  /** The sum of `f` over the elements of `s` (a SQL `SUM`). */
  function Sum<T>(s: seq<T>, f: T -> real): real {
    if s == [] then 0.0 else f(s[0]) + Sum(s[1..], f)
  }

  /** Summing distributes over concatenation. */
  lemma {:induction false} SumConcat<T>(a: seq<T>, b: seq<T>, f: T -> real)
    ensures Sum(a + b, f) == Sum(a, f) + Sum(b, f)
  {
    if a == [] {
      assert a + b == b;
    } else {
      assert (a + b)[0] == a[0];
      assert (a + b)[1..] == a[1..] + b;
      SumConcat(a[1..], b, f);
    }
  }

  /** Filtering out only elements on which `f` is zero leaves the sum of `f` unchanged. */
  lemma {:induction false} SumFilterAgrees<T(!new)>(s: seq<T>, keep: T -> bool, f: T -> real)
    requires forall x :: f(x) != 0.0 ==> keep(x)
    ensures Sum(Filter(s, keep), f) == Sum(s, f)
  {
    if s != [] {
      var head := if keep(s[0]) then [s[0]] else [];
      assert Filter(s, keep) == head + Filter(s[1..], keep);
      SumConcat(head, Filter(s[1..], keep), f);
      SumFilterAgrees(s[1..], keep, f);
      if keep(s[0]) {
        assert Sum(head, f) == f(s[0]) + Sum(head[1..], f);
        assert head[1..] == [];
      }
    }
  }

  /** Appending at the end puts the element first in the reversed order. */
  lemma ReverseAppend<T(!new)>(s: seq<T>, x: T)
    ensures Reverse(s + [x]) == [x] + Reverse(s)
  {
    var a := Reverse(s + [x]);
    var b := [x] + Reverse(s);
    assert |a| == |b|;
    forall i | 0 <= i < |a|
      ensures a[i] == b[i]
    {
      if i > 0 {
        assert (s + [x])[|s| - i] == s[|s| - 1 - (i - 1)];
      }
    }
  }
}

=== FILE: error_handler.dfy ===
/** The application's last error middleware: it maps a thrown error to a status and a JSON body.
    Error names are looked at first, then database and network codes, then the error's own
    status code; outside development no stack is shown, and in production no raw message. */
module ErrorHandler {
  import opened Common

  /** The properties of a thrown error that the handler reads. */
  datatype Error = Error(
    name: Option<string>,
    code: Option<string>,
    statusCode: Option<int>,
    message: Option<string>,
    details: JsVal,
    stack: Option<string>)

  /** The JSON body: `errors` and `stack` are `None` when the key is absent. */
  datatype ErrorBody = ErrorBody(success: bool, message: string, errors: Option<JsVal>, stack: Option<string>)

  datatype ErrorResponse = ErrorResponse(status: int, body: ErrorBody)

  const InvalidData: string := "Dados inválidos"
  const DuplicateData: string := "Dados já existem no sistema"
  const InvalidReference: string := "Referência inválida"
  const ServiceUnavailable: string := "Serviço temporariamente indisponível"

  /** Every message the handler can produce without echoing the error's own text. */
  const FixedMessages: set<string> :=
    {InvalidData, InvalidToken, ExpiredToken, DuplicateData, InvalidReference, ServiceUnavailable, InternalError}

  /** The names the handler recognises, checked before any code. */
  predicate NamedError(err: Error) {
    err.name == Some("ValidationError") || err.name == Some("JsonWebTokenError") || err.name == Some("TokenExpiredError")
  }

  /** The codes the handler recognises. */
  predicate CodedError(err: Error) {
    err.code == Some("23505") || err.code == Some("23503") || err.code == Some("ECONNREFUSED")
  }

  function Refusal(status: int, message: string): ErrorResponse {
    ErrorResponse(status, ErrorBody(false, message, None, None))
  }

  /** `errorHandler(err, req, res, next)` under the given `NODE_ENV`. */
  function Handle(err: Error, nodeEnv: Option<string>): (r: ErrorResponse)
    ensures !r.body.success
    ensures err.name == Some("ValidationError") ==>
      && r.status == 400 && r.body.message == InvalidData
      && r.body.errors == Some(if Truthy(err.details) then err.details else OptStr(err.message))
    ensures err.name == Some("JsonWebTokenError") ==> r == Refusal(401, InvalidToken)
    ensures err.name == Some("TokenExpiredError") ==> r == Refusal(401, ExpiredToken)
    ensures !NamedError(err) && err.code == Some("23505") ==> r == Refusal(409, DuplicateData)
    ensures !NamedError(err) && err.code == Some("23503") ==> r == Refusal(400, InvalidReference)
    ensures !NamedError(err) && err.code == Some("ECONNREFUSED") ==> r == Refusal(503, ServiceUnavailable)
    ensures !NamedError(err) && !CodedError(err) ==>
      && r.status == (if err.statusCode.Some? && err.statusCode.value != 0 then err.statusCode.value else 500)
      && r.body.errors.None?
      && (nodeEnv == Some("production") ==> r.body.message == InternalError)
      && (nodeEnv != Some("production") ==> r.body.message == if Present(err.message) then err.message.value else InternalError)
    ensures r.body.stack.Some? ==> nodeEnv == Some("development") && r.body.stack == err.stack
    ensures r.body.errors.Some? <==> err.name == Some("ValidationError")
  {
    if err.name == Some("ValidationError") then
      ErrorResponse(400, ErrorBody(false, InvalidData, Some(if Truthy(err.details) then err.details else OptStr(err.message)), None))
    else if err.name == Some("JsonWebTokenError") then
      Refusal(401, InvalidToken)
    else if err.name == Some("TokenExpiredError") then
      Refusal(401, ExpiredToken)
    else if err.code == Some("23505") then
      Refusal(409, DuplicateData)
    else if err.code == Some("23503") then
      Refusal(400, InvalidReference)
    else if err.code == Some("ECONNREFUSED") then
      Refusal(503, ServiceUnavailable)
    else
      var status := if err.statusCode.Some? && err.statusCode.value != 0 then err.statusCode.value else 500;
      var message := if Present(err.message) then err.message.value else InternalError;
      ErrorResponse(status, ErrorBody(
        false,
        if nodeEnv == Some("production") then InternalError else message,
        None,
        if nodeEnv == Some("development") then err.stack else None))
  }

  /** An error's name decides its response before its code is looked at. */
  lemma NameBeforeCode(err: Error, code: Option<string>, nodeEnv: Option<string>)
    requires NamedError(err)
    ensures Handle(err.(code := code), nodeEnv) == Handle(err, nodeEnv)
  {
  }

  /** In production the response never carries the error's own message or its stack
      (only a validation error's details or message, under `errors`). */
  lemma ProductionHidesInternals(err: Error)
    ensures Handle(err, Some("production")).body.message in FixedMessages
    ensures Handle(err, Some("production")).body.stack.None?
  {
  }

  /** Outside development the stack is never shown; in development it is shown for every
      unrecognised error. */
  lemma StackOnlyInDevelopment(err: Error, nodeEnv: Option<string>)
    ensures Handle(err, nodeEnv).body.stack.Some? ==> nodeEnv == Some("development")
    ensures nodeEnv == Some("development") && !NamedError(err) && !CodedError(err)
            ==> Handle(err, nodeEnv).body.stack == err.stack
  {
  }
}

=== FILE: reports_slice.dfy ===
/** The frontend's `reports` state slice: three independent reports (dashboard, campaigns,
    sales), each with its own data, loading flag and error. */
module ReportsSlice {
  import opened Common

  /** The three reports the slice keeps. */
  datatype Report = Dashboard | Campaigns | Sales

  datatype State = State(
    dashboardData: JsVal,
    campaignReports: JsVal,
    salesData: JsVal,
    loading: bool,
    error: JsVal,
    campaignsLoading: bool,
    campaignsError: JsVal,
    salesLoading: bool,
    salesError: JsVal)

  /** The actions the slice handles; `Fulfilled` carries the response's `data` field,
      `Rejected` the rejection payload. */
  datatype Action =
    | ClearError
    | Pending(report: Report)
    | Fulfilled(report: Report, data: JsVal)
    | Rejected(report: Report, payload: JsVal)
    | Unhandled

  function LoadingOf(s: State, k: Report): bool {
    match k
    case Dashboard => s.loading
    case Campaigns => s.campaignsLoading
    case Sales => s.salesLoading
  }

  function ErrorOf(s: State, k: Report): JsVal {
    match k
    case Dashboard => s.error
    case Campaigns => s.campaignsError
    case Sales => s.salesError
  }

  function DataOf(s: State, k: Report): JsVal {
    match k
    case Dashboard => s.dashboardData
    case Campaigns => s.campaignReports
    case Sales => s.salesData
  }

  /** Report `k` has the same data, loading flag and error in both states. */
  predicate SameReport(r: State, s: State, k: Report) {
    LoadingOf(r, k) == LoadingOf(s, k) && ErrorOf(r, k) == ErrorOf(s, k) && DataOf(r, k) == DataOf(s, k)
  }

  /** A state is nothing but its three reports. */
  lemma StateIsItsReports(r: State, s: State)
    requires forall k :: SameReport(r, s, k)
    ensures r == s
  {
    assert SameReport(r, s, Dashboard) && SameReport(r, s, Campaigns) && SameReport(r, s, Sales);
  }

  /** The state before any action: no dashboard, empty lists, nothing loading, no errors. */
  function Initial(): (s: State)
    ensures forall k :: !LoadingOf(s, k) && ErrorOf(s, k) == JNull
    ensures DataOf(s, Dashboard) == JNull
    ensures DataOf(s, Campaigns) == JArray([]) && DataOf(s, Sales) == JArray([])
  {
    State(JNull, JArray([]), JArray([]), false, JNull, false, JNull, false, JNull)
  }

  /** The slice's reducer, case by case as the slice declares it. */
  function Reduce(s: State, a: Action): (r: State)
    ensures a.ClearError? ==>
      forall k :: ErrorOf(r, k) == JNull && LoadingOf(r, k) == LoadingOf(s, k) && DataOf(r, k) == DataOf(s, k)
    ensures a.Pending? ==>
      LoadingOf(r, a.report) && ErrorOf(r, a.report) == JNull && DataOf(r, a.report) == DataOf(s, a.report)
    ensures a.Fulfilled? ==>
      !LoadingOf(r, a.report) && DataOf(r, a.report) == a.data && ErrorOf(r, a.report) == ErrorOf(s, a.report)
    ensures a.Rejected? ==>
      !LoadingOf(r, a.report) && ErrorOf(r, a.report) == a.payload && DataOf(r, a.report) == DataOf(s, a.report)
    ensures (a.Pending? || a.Fulfilled? || a.Rejected?) ==>
      forall k :: k != a.report ==> SameReport(r, s, k)
    ensures a.Unhandled? ==> r == s
  {
    match a
    case ClearError => s.(error := JNull, campaignsError := JNull, salesError := JNull)
    case Pending(Dashboard) => s.(loading := true, error := JNull)
    case Fulfilled(Dashboard, data) => s.(loading := false, dashboardData := data)
    case Rejected(Dashboard, payload) => s.(loading := false, error := payload)
    case Pending(Campaigns) => s.(campaignsLoading := true, campaignsError := JNull)
    case Fulfilled(Campaigns, data) => s.(campaignsLoading := false, campaignReports := data)
    case Rejected(Campaigns, payload) => s.(campaignsLoading := false, campaignsError := payload)
    case Pending(Sales) => s.(salesLoading := true, salesError := JNull)
    case Fulfilled(Sales, data) => s.(salesLoading := false, salesData := data)
    case Rejected(Sales, payload) => s.(salesLoading := false, salesError := payload)
    case Unhandled => s
  }

  /** A successful fetch cycle leaves its report loaded, without error, holding the new data. */
  lemma FetchCycleSucceeds(s: State, k: Report, data: JsVal)
    ensures var r := Reduce(Reduce(s, Pending(k)), Fulfilled(k, data));
            !LoadingOf(r, k) && ErrorOf(r, k) == JNull && DataOf(r, k) == data
            && forall k' :: k' != k ==> SameReport(r, s, k')
  {
  }

  /** A failed fetch cycle keeps the report's previous data and records the error. */
  lemma FetchCycleFails(s: State, k: Report, payload: JsVal)
    ensures var r := Reduce(Reduce(s, Pending(k)), Rejected(k, payload));
            !LoadingOf(r, k) && ErrorOf(r, k) == payload && DataOf(r, k) == DataOf(s, k)
            && forall k' :: k' != k ==> SameReport(r, s, k')
  {
  }

  /** Actions on two different reports commute. */
  lemma DifferentReportsCommute(s: State, a: Action, b: Action)
    requires a.Pending? || a.Fulfilled? || a.Rejected?
    requires b.Pending? || b.Fulfilled? || b.Rejected?
    requires a.report != b.report
    ensures Reduce(Reduce(s, a), b) == Reduce(Reduce(s, b), a)
  {
    var ab := Reduce(Reduce(s, a), b);
    var ba := Reduce(Reduce(s, b), a);
    forall k
      ensures SameReport(ab, ba, k)
    {
    }
    StateIsItsReports(ab, ba);
  }
}

=== FILE: schema.dfy ===
/** The rows of the three tables the core reads and writes: users, tracking links and
    tracking events. Column defaults of the schema are recorded as constants. */
module Schema {
  import opened Common

  /** A row of `users` as the queries select it (`id, email, name, bot_id, bot_token`). */
  datatype UserRow = UserRow(id: int, email: string, name: string, botId: Option<string>, botToken: Option<string>)

  /** A row of `tracking_links`. The triple (`botId`, `token`, `campaignId`) is what the public
      endpoint matches on. */
  datatype Link = Link(
    id: int,
    userId: int,
    campaignId: string,
    campaignName: Option<string>,
    trackingUrl: string,
    botId: string,
    token: string,
    isActive: bool)

  datatype EventType = Click | Sale

  /** The `utmify_status` column: the delivery state of a sale towards the attribution platform. */
  datatype DeliveryStatus = Pending | Completed | Failed

  /** A row of `tracking_events`. `diagnostic` is the `utmify_response` column, kept as the
      JavaScript value before it is serialised. */
  datatype Event = Event(
    linkId: int,
    userId: int,
    eventType: EventType,
    campaignId: string,
    saleValue: Option<real>,
    status: DeliveryStatus,
    diagnostic: Option<JsVal>,
    ip: Option<string>,
    userAgent: Option<string>)

  /** The database: users by primary key; links and events in insertion (`created_at`) order. */
  datatype Db = Db(users: map<int, UserRow>, links: seq<Link>, events: seq<Event>)

  /** Default of `tracking_links.is_active`. */
  const DefaultActive: bool := true

  /** Default of `tracking_events.utmify_status`. */
  const DefaultStatus: DeliveryStatus := Pending

  /** `tracking_links.id` is a primary key. */
  predicate UniqueLinkIds(links: seq<Link>) {
    forall i, j :: 0 <= i < j < |links| ==> links[i].id != links[j].id
  }

  /** A link row with this id exists and belongs to this user (`WHERE id = $1 AND user_id = $2`). */
  predicate Owns(link: Link, id: int, userId: int) {
    link.id == id && link.userId == userId
  }
}

=== FILE: track.dfy ===
/** The public ingestion endpoint `GET /track`: validate the query, resolve the tracking link,
    append a click row, and when a sale value is given validate it, append a sale row, forward
    the sale to the attribution platform and write the delivery outcome onto the newest sale
    row of the link. Every call the handler cannot see is fixed in advance in `Oracles`. */
module Track {
  import opened Common
  import opened Schema
  import Utmify

  /** The query string of the request. */
  datatype Query = Query(botId: Option<string>, token: Option<string>, campaign: Option<string>, saleValue: Option<string>)

  /** Request metadata stored on every row: the client address and its `User-Agent` header. */
  datatype Client = Client(ip: Option<string>, userAgent: Option<string>)

  /** The results of everything outside the handler, in the order it would ask for them:
      whether the link query throws, whether the click insert throws, `parseFloat` (`None` is NaN),
      whether the sale insert throws, the platform configuration and transport reply, the clock,
      the error message the outcome update throws (if it does), and whether the fallback
      update throws too. */
  datatype Oracles = Oracles(
    lookupFails: bool,
    clickInsertFails: bool,
    parseAmount: string -> Option<real>,
    saleInsertFails: bool,
    config: Utmify.Config,
    reply: Utmify.HttpReply,
    now: string,
    outcomeUpdateError: Option<string>,
    fallbackUpdateFails: bool)

  datatype Body =
    | Refused(message: string)
    | Recorded(message: string, campaignId: string, eventType: EventType, timestamp: string)

  datatype Response = Response(status: int, body: Body)

  /** The data handed to the forwarder and what the forwarder did with it. */
  datatype Forward = Forward(data: map<string, JsVal>, send: Utmify.Send)

  /** The response, the database afterwards, whether the link was looked up, and the forward call. */
  datatype Result = Result(response: Response, db: Db, lookedUp: bool, forward: Option<Forward>)

  /** A link resolved by the join with its owner, carrying the owner's `bot_token`. */
  datatype Resolved = Resolved(link: Link, botToken: Option<string>)

  const MissingParams: string := "Parâmetros obrigatórios: bot_id, token, campaign"
  const LinkNotFound: string := "Link de rastreamento não encontrado ou inativo"
  const InvalidAmount: string := "Valor da venda deve ser um número positivo"
  const EventRecorded: string := "Evento registrado com sucesso"
  const SaleStatusMarker: string := "100%"

  /** The three required parameters are all truthy. */
  predicate Complete(q: Query) {
    Present(q.botId) && Present(q.token) && Present(q.campaign)
  }

  /** The link query's `WHERE` clause and its join with `users`. */
  predicate Resolvable(l: Link, users: map<int, UserRow>, botId: string, token: string, campaign: string) {
    l.botId == botId && l.token == token && l.campaignId == campaign && l.isActive && l.userId in users
  }

  /** A row the link query returns, if any (the model takes the earliest inserted match). Any
      failing field gives the same `None`. */
  function Resolve(links: seq<Link>, users: map<int, UserRow>, botId: string, token: string, campaign: string): (r: Option<Resolved>)
    ensures r.Some? <==> exists i :: 0 <= i < |links| && Resolvable(links[i], users, botId, token, campaign)
    ensures r.Some? ==>
      && r.value.link in links
      && Resolvable(r.value.link, users, botId, token, campaign)
      && r.value.botToken == users[r.value.link.userId].botToken
  {
    if links == [] then None
    else if Resolvable(links[0], users, botId, token, campaign) then
      Some(Resolved(links[0], users[links[0].userId].botToken))
    else
      var r := Resolve(links[1..], users, botId, token, campaign);
      assert forall i :: 1 <= i < |links| ==> links[i] == links[1..][i - 1];
      r
  }

  /** The click row: link, owner, campaign and client metadata, no amount, default status. */
  function ClickRow(link: Link, campaign: string, client: Client): (r: Event)
    ensures r.linkId == link.id && r.userId == link.userId && r.campaignId == campaign
    ensures !IsSaleOf(r, link.id) && r.saleValue.None?
    ensures r.status == Pending && r.diagnostic.None?
    ensures r.ip == client.ip && r.userAgent == client.userAgent
  {
    Event(link.id, link.userId, Click, campaign, None, DefaultStatus, None, client.ip, client.userAgent)
  }

  /** The sale row: as the click row, with the amount. */
  function SaleRow(link: Link, campaign: string, amount: real, client: Client): (r: Event)
    ensures IsSaleOf(r, link.id) && r.saleValue == Some(amount)
    ensures r.(eventType := Click, saleValue := None) == ClickRow(link, campaign, client)
  {
    Event(link.id, link.userId, Sale, campaign, Some(amount), DefaultStatus, None, client.ip, client.userAgent)
  }

  /** The owner's stored credential as the JavaScript value read from the row (`null` when unset). */
  function TokenValue(t: Option<string>): JsVal {
    match t
    case None => JNull
    case Some(s) => JStr(s)
  }

  /** The object handed to the forwarder: it carries every key the UTMify payload reads and
      no other, so no payload field is `undefined`. */
  function ForwardData(botId: string, amount: real, campaign: string, now: string, botToken: Option<string>): (r: map<string, JsVal>)
    ensures forall k :: k in r <==> k in Utmify.PayloadKeys
    ensures Utmify.Payload(r)[0].1 == JStr(botId) && Utmify.Payload(r)[1].1 == JNum(amount)
    ensures Utmify.Payload(r)[2].1 == JStr(campaign) && Utmify.Payload(r)[4].1 == JStr(now)
    ensures Utmify.Payload(r)[5].1 == JNull <==> botToken.None?
  {
    map[
      "bot_id" := JStr(botId),
      "sale_value" := JNum(amount),
      "campaign_id" := JStr(campaign),
      "status" := JStr(SaleStatusMarker),
      "timestamp" := JStr(now),
      "user_token" := TokenValue(botToken)]
  }

  predicate IsSaleOf(e: Event, linkId: int) {
    e.linkId == linkId && e.eventType == Sale
  }

  /** The position of the newest sale row of a link (`ORDER BY created_at DESC LIMIT 1`). */
  function NewestSale(rows: seq<Event>, linkId: int): (r: Option<nat>)
    ensures r.Some? ==> r.value < |rows| && IsSaleOf(rows[r.value], linkId)
    ensures r.Some? ==> forall j :: r.value < j < |rows| ==> !IsSaleOf(rows[j], linkId)
    ensures r.None? ==> forall j :: 0 <= j < |rows| ==> !IsSaleOf(rows[j], linkId)
    decreases |rows|
  {
    if rows == [] then None
    else if IsSaleOf(rows[|rows| - 1], linkId) then Some(|rows| - 1)
    else NewestSale(rows[..|rows| - 1], linkId)
  }

  /** The outcome update: status and diagnostic of the newest sale row of the link change,
      nothing else does; with no sale row it affects nothing. */
  function WriteOutcome(rows: seq<Event>, linkId: int, status: DeliveryStatus, diagnostic: JsVal): (r: seq<Event>)
    ensures |r| == |rows|
    ensures NewestSale(rows, linkId).None? ==> r == rows
    ensures NewestSale(rows, linkId).Some? ==>
      var i := NewestSale(rows, linkId).value;
      && r[i].status == status
      && r[i].diagnostic == Some(diagnostic)
      && r[i].(status := rows[i].status, diagnostic := rows[i].diagnostic) == rows[i]
      && forall j :: 0 <= j < |rows| && j != i ==> r[j] == rows[j]
  {
    match NewestSale(rows, linkId)
    case None => rows
    case Some(i) => rows[i := rows[i].(status := status, diagnostic := Some(diagnostic))]
  }

  /** In a sequential model the outcome update lands on the row just appended. */
  lemma {:induction false} NewestSaleIsLastAppended(rows: seq<Event>, sale: Event, linkId: int)
    requires IsSaleOf(sale, linkId)
    ensures NewestSale(rows + [sale], linkId) == Some(|rows|)
  {
  }

  /** Steps after a successful sale insert: forward, then write the outcome. */
  function ForwardSale(db: Db, found: Resolved, q: Query, o: Oracles, amount: real): (r: Result)
    requires Complete(q)
    requires |db.events| > 0 && IsSaleOf(db.events[|db.events| - 1], found.link.id)
    ensures r.db.users == db.users && r.db.links == db.links && |r.db.events| == |db.events|
    ensures r.db.events[..|db.events| - 1] == db.events[..|db.events| - 1]
    ensures r.forward.Some? && r.forward.value.data == ForwardData(q.botId.value, amount, q.campaign.value, o.now, found.botToken)
    ensures r.forward.value.send == Utmify.SendToUtmify(o.config, r.forward.value.data, o.reply)
    ensures r.response.status == 500 <==> o.outcomeUpdateError.Some? && o.fallbackUpdateFails
    ensures r.response.status != 500 ==>
      && r.response == Response(200, Recorded(EventRecorded, q.campaign.value, Sale, o.now))
      && var last := r.db.events[|db.events| - 1];
      && last.(status := Pending, diagnostic := None) == db.events[|db.events| - 1].(status := Pending, diagnostic := None)
      && last.status != Pending
      && (last.status == Completed <==> o.outcomeUpdateError.None? && r.forward.value.send.outcome.Success())
      && last.diagnostic == Some(
           if o.outcomeUpdateError.None? then r.forward.value.send.outcome.ToJs()
           else JObject([("error", JStr(o.outcomeUpdateError.value))]))
    ensures r.response.status == 500 ==> r.db == db
  {
    var data := ForwardData(q.botId.value, amount, q.campaign.value, o.now, found.botToken);
    var sent := Utmify.SendToUtmify(o.config, data, o.reply);
    var fwd := Some(Forward(data, sent));
    var rows := db.events;
    assert rows == rows[..|rows| - 1] + [rows[|rows| - 1]];
    NewestSaleIsLastAppended(rows[..|rows| - 1], rows[|rows| - 1], found.link.id);
    match o.outcomeUpdateError
    case None =>
      var status := if sent.outcome.Success() then Completed else Failed;
      var updated := WriteOutcome(rows, found.link.id, status, sent.outcome.ToJs());
      Result(Response(200, Recorded(EventRecorded, q.campaign.value, Sale, o.now)), db.(events := updated), true, fwd)
    case Some(message) =>
      if o.fallbackUpdateFails then
        Result(Response(500, Refused(InternalError)), db, true, fwd)
      else
        var updated := WriteOutcome(rows, found.link.id, Failed, JObject([("error", JStr(message))]));
        Result(Response(200, Recorded(EventRecorded, q.campaign.value, Sale, o.now)), db.(events := updated), true, fwd)
  }

  /** Steps after the link resolved: the click row, then the optional sale. */
  function RecordEvents(db: Db, found: Resolved, q: Query, client: Client, o: Oracles): (r: Result)
    requires Complete(q)
    ensures r.lookedUp && r.db.users == db.users && r.db.links == db.links
    ensures |db.events| <= |r.db.events| && r.db.events[..|db.events|] == db.events
    ensures o.clickInsertFails ==> r == Result(Response(500, Refused(InternalError)), db, true, None)
    ensures !o.clickInsertFails ==>
      && |db.events| < |r.db.events| <= |db.events| + 2
      && r.db.events[..|db.events| + 1] == db.events + [ClickRow(found.link, q.campaign.value, client)]
    ensures !o.clickInsertFails && !Present(q.saleValue) ==>
      r == Result(Response(200, Recorded(EventRecorded, q.campaign.value, Click, o.now)),
                  db.(events := db.events + [ClickRow(found.link, q.campaign.value, client)]), true, None)
    ensures !o.clickInsertFails && Present(q.saleValue) ==>
      var parsed := o.parseAmount(q.saleValue.value);
      && (parsed.None? || parsed.value <= 0.0 <==> r.response == Response(400, Refused(InvalidAmount)))
      && (parsed.None? || parsed.value <= 0.0 ==> |r.db.events| == |db.events| + 1 && r.forward.None?)
      && (parsed.Some? && parsed.value > 0.0 && !o.saleInsertFails ==>
            && |r.db.events| == |db.events| + 2
            && r.forward.Some?
            && r.forward.value.data == ForwardData(q.botId.value, parsed.value, q.campaign.value, o.now, found.botToken)
            && var sale := r.db.events[|db.events| + 1];
            && sale.(status := Pending, diagnostic := None) == SaleRow(found.link, q.campaign.value, parsed.value, client)
            && (r.response.status == 200 ==> sale.status != Pending))
      && (parsed.Some? && parsed.value > 0.0 && o.saleInsertFails ==>
            r.response.status == 500 && |r.db.events| == |db.events| + 1 && r.forward.None?)
    ensures !o.clickInsertFails && Present(q.saleValue)
            && o.parseAmount(q.saleValue.value).Some? && o.parseAmount(q.saleValue.value).value > 0.0
            && !o.saleInsertFails ==>
      var amount := o.parseAmount(q.saleValue.value).value;
      r == ForwardSale(db.(events := db.events + [ClickRow(found.link, q.campaign.value, client),
                                                  SaleRow(found.link, q.campaign.value, amount, client)]),
                       found, q, o, amount)
    ensures r.response.status == 200 ==>
      r.response.body == Recorded(EventRecorded, q.campaign.value, if Present(q.saleValue) then Sale else Click, o.now)
  {
    if o.clickInsertFails then
      Result(Response(500, Refused(InternalError)), db, true, None)
    else
      var click := ClickRow(found.link, q.campaign.value, client);
      var afterClick := db.(events := db.events + [click]);
      if !Present(q.saleValue) then
        Result(Response(200, Recorded(EventRecorded, q.campaign.value, Click, o.now)), afterClick, true, None)
      else
        match o.parseAmount(q.saleValue.value)
        case None =>
          Result(Response(400, Refused(InvalidAmount)), afterClick, true, None)
        case Some(amount) =>
          if amount <= 0.0 then
            Result(Response(400, Refused(InvalidAmount)), afterClick, true, None)
          else if o.saleInsertFails then
            Result(Response(500, Refused(InternalError)), afterClick, true, None)
          else
            var sale := SaleRow(found.link, q.campaign.value, amount, client);
            var afterSale := afterClick.(events := afterClick.events + [sale]);
            assert afterSale.events == db.events + [click, sale];
            var r := ForwardSale(afterSale, found, q, o, amount);
            assert r.db.events[..|db.events| + 1] == afterSale.events[..|afterSale.events| - 1][..|db.events| + 1];
            assert r.db.events[..|db.events|] == r.db.events[..|db.events| + 1][..|db.events|];
            r
  }

  /** The handler `GET /track`. */
  function Handle(db: Db, q: Query, client: Client, o: Oracles): (r: Result)
    ensures r.db.users == db.users && r.db.links == db.links
    ensures r.response.status in {200, 400, 404, 500}
    ensures r.response.status != 200 <==> r.response.body.Refused?
    ensures |db.events| <= |r.db.events| <= |db.events| + 2
    ensures r.db.events[..|db.events|] == db.events
    ensures !Complete(q) ==> r == Result(Response(400, Refused(MissingParams)), db, false, None)
    ensures Complete(q) && o.lookupFails ==> r == Result(Response(500, Refused(InternalError)), db, true, None)
    ensures Complete(q) && !o.lookupFails
            && Resolve(db.links, db.users, q.botId.value, q.token.value, q.campaign.value).Some? ==>
      r == RecordEvents(db, Resolve(db.links, db.users, q.botId.value, q.token.value, q.campaign.value).value, q, client, o)
    ensures Complete(q) && !o.lookupFails ==>
      var found := Resolve(db.links, db.users, q.botId.value, q.token.value, q.campaign.value);
      && (found.None? <==> r.response.status == 404)
      && (found.None? ==> r == Result(Response(404, Refused(LinkNotFound)), db, true, None))
      && (found.Some? && !o.clickInsertFails ==>
            |r.db.events| > |db.events| && r.db.events[|db.events|] == ClickRow(found.value.link, q.campaign.value, client))
      && (found.Some? && r.response.status == 200 && Present(q.saleValue) ==>
            && o.parseAmount(q.saleValue.value).Some?
            && o.parseAmount(q.saleValue.value).value > 0.0
            && |r.db.events| == |db.events| + 2
            && r.db.events[|db.events| + 1].(status := Pending, diagnostic := None)
               == SaleRow(found.value.link, q.campaign.value, o.parseAmount(q.saleValue.value).value, client))
    ensures |r.db.events| > |db.events| ==>
      && Complete(q) && !o.lookupFails
      && Resolve(db.links, db.users, q.botId.value, q.token.value, q.campaign.value).Some?
    ensures r.response.status == 200 ==>
      && Complete(q)
      && r.response.body.campaignId == q.campaign.value
      && (r.response.body.eventType == Sale <==> Present(q.saleValue))
      && (r.response.body.eventType == Click ==> |r.db.events| == |db.events| + 1)
      && (r.response.body.eventType == Sale ==> |r.db.events| == |db.events| + 2 && r.db.events[|db.events| + 1].status != Pending)
    ensures r.forward.Some? ==> |r.db.events| == |db.events| + 2
  {
    if !Present(q.botId) || !Present(q.token) || !Present(q.campaign) then
      Result(Response(400, Refused(MissingParams)), db, false, None)
    else if o.lookupFails then
      Result(Response(500, Refused(InternalError)), db, true, None)
    else
      match Resolve(db.links, db.users, q.botId.value, q.token.value, q.campaign.value)
      case None => Result(Response(404, Refused(LinkNotFound)), db, true, None)
      case Some(found) =>
        RecordEvents(db, found, q, client, o)
  }
}

=== FILE: tracking_routes.dfy ===
/** The authenticated link-management routes: create a link (and its tracking URL), list the
    caller's links a page at a time, delete, toggle, and report the statistics of one link.
    The caller is the user row the authentication middleware attached; every database
    failure is an input that makes the route answer 500 with nothing changed. */
module TrackingRoutes {
  import opened Common
  import opened Schema
  import Track

  /** The JSON body of `POST /links`. */
  datatype CreateBody = CreateBody(campaignId: Option<string>, campaignName: Option<string>)

  /** `totalPages` is `None` where the division gives a non-finite number (limit 0). */
  datatype Pagination = Pagination(page: int, limit: int, total: nat, totalPages: Option<int>)

  datatype Stats = Stats(totalEvents: nat, totalSales: nat, totalValue: real)

  datatype Body =
    | Refused(message: string)
    | Created(message: string, link: Link)
    | Listed(links: seq<Link>, pagination: Pagination)
    | Deleted(message: string)
    | Toggled(message: string, isActive: bool)
    | Reported(link: Link, stats: Stats)

  datatype Response = Response(status: int, body: Body)

  /** The response and the database afterwards. */
  datatype Outcome = Outcome(response: Response, db: Db)

  const DefaultBaseUrl: string := "https://skpttrack.com"
  const CampaignRequired: string := "ID da campanha é obrigatório"
  const LinkCreated: string := "Link de rastreamento criado com sucesso"
  const LinkMissing: string := "Link não encontrado"
  const LinkDeleted: string := "Link deletado com sucesso"
  const LinkActivated: string := "Link ativado com sucesso"
  const LinkDeactivated: string := "Link desativado com sucesso"
  const DefaultPage: int := 1
  const DefaultLimit: int := 10

  /** A string interpolated into a template literal: a missing value prints as `null`. */
  function Interpolate(s: Option<string>): string {
    match s
    case None => "null"
    case Some(x) => x
  }

  /** The public URL of a link: the configured base (or the default one) followed by the three
      parameters the public endpoint matches on, unencoded. */
  function TrackingUrl(baseUrl: Option<string>, botId: string, token: string, campaign: string): (r: string)
    ensures var prefix := (if Present(baseUrl) then baseUrl.value else DefaultBaseUrl) + "/track?bot_id=" + botId;
      |prefix| <= |r| && r[..|prefix|] == prefix
    ensures var suffix := "&campaign=" + campaign;
      |suffix| <= |r| && r[|r| - |suffix|..] == suffix
  {
    (if Present(baseUrl) then baseUrl.value else DefaultBaseUrl)
      + "/track?bot_id=" + botId + "&token=" + token + "&campaign=" + campaign
  }

  /** Where the separator sits in `a + [sep] + r` when `a` holds none. */
  lemma SeparatorPosition(a: string, sep: char, r: string, i: nat)
    requires sep !in a && i < |a|
    ensures (a + [sep] + r)[i] != sep
    ensures (a + [sep] + r)[|a|] == sep
  {
    assert (a + [sep] + r)[i] == a[i];
  }

  /** Two strings without the separator that are followed by it are split at the same place. */
  lemma SplitAtSeparator(a1: string, r1: string, a2: string, r2: string, sep: char)
    requires sep !in a1 && sep !in a2
    requires a1 + [sep] + r1 == a2 + [sep] + r2
    ensures a1 == a2 && r1 == r2
  {
    var s := a1 + [sep] + r1;
    if |a1| < |a2| {
      SeparatorPosition(a2, sep, r2, |a1|);
      assert false;
    } else if |a2| < |a1| {
      SeparatorPosition(a1, sep, r1, |a2|);
      assert false;
    }
    assert a1 == s[..|a1|] == a2;
    assert r1 == s[|a1| + 1..] == r2;
  }

  /** `x + "&" + key + rest` determines `x` and `rest` when `x` holds no `&`. */
  lemma ParameterSplit(x1: string, r1: string, x2: string, r2: string, key: string)
    requires '&' !in x1 && '&' !in x2
    requires x1 + (['&'] + key) + r1 == x2 + (['&'] + key) + r2
    ensures x1 == x2 && r1 == r2
  {
    assert x1 + (['&'] + key) + r1 == x1 + ['&'] + (key + r1);
    assert x2 + (['&'] + key) + r2 == x2 + ['&'] + (key + r2);
    SplitAtSeparator(x1, key + r1, x2, key + r2, '&');
    assert r1 == (key + r1)[|key|..];
    assert r2 == (key + r2)[|key|..];
  }

  /** The query part of a tracking URL, after the fixed prefix. */
  lemma UrlShape(base: Option<string>, b: string, t: string, c: string)
    ensures TrackingUrl(base, b, t, c)
      == ((if Present(base) then base.value else DefaultBaseUrl) + "/track?bot_id=")
         + (b + (['&'] + "token=") + (t + (['&'] + "campaign=") + c))
  {
    assert "&token=" == ['&'] + "token=";
    assert "&campaign=" == ['&'] + "campaign=";
  }

  /** A tracking URL determines the triple it carries, provided the bot id and the token hold no `&`. */
  lemma TrackingUrlInjective(base: Option<string>, b1: string, t1: string, c1: string, b2: string, t2: string, c2: string)
    requires '&' !in b1 && '&' !in b2 && '&' !in t1 && '&' !in t2
    requires TrackingUrl(base, b1, t1, c1) == TrackingUrl(base, b2, t2, c2)
    ensures b1 == b2 && t1 == t2 && c1 == c2
  {
    var prefix := (if Present(base) then base.value else DefaultBaseUrl) + "/track?bot_id=";
    var tail1 := t1 + (['&'] + "campaign=") + c1;
    var tail2 := t2 + (['&'] + "campaign=") + c2;
    var rest1 := b1 + (['&'] + "token=") + tail1;
    var rest2 := b2 + (['&'] + "token=") + tail2;
    UrlShape(base, b1, t1, c1);
    UrlShape(base, b2, t2, c2);
    assert prefix + rest1 == prefix + rest2;
    assert rest1 == (prefix + rest1)[|prefix|..];
    assert rest2 == (prefix + rest2)[|prefix|..];
    ParameterSplit(b1, tail1, b2, tail2, "token=");
    ParameterSplit(t1, c1, t2, c2, "campaign=");
  }

  predicate IdTaken(links: seq<Link>, id: int) {
    exists i :: 0 <= i < |links| && links[i].id == id
  }

  /** `POST /links`. `token` is the freshly generated secret, `newId` the id the sequence hands
      out. The insert fails (500) on a null `bot_id`, a missing owner, a taken id, or any other
      database error. */
  function CreateLink(db: Db, user: UserRow, body: CreateBody, baseUrl: Option<string>, token: string, newId: int, insertFails: bool): (r: Outcome)
    ensures r.db.users == db.users && r.db.events == db.events
    ensures !Present(body.campaignId) ==> r == Outcome(Response(400, Refused(CampaignRequired)), db)
    ensures r.response.status == 201 <==>
      Present(body.campaignId) && !insertFails && user.botId.Some? && user.id in db.users && !IdTaken(db.links, newId)
    ensures r.response.status != 201 ==> r.db == db
    ensures Present(body.campaignId) && r.response.status != 201 ==> r == Outcome(Response(500, Refused(InternalError)), db)
    ensures r.response.status == 201 ==>
      && r.response.body.Created?
      && var link := r.response.body.link;
      && r.db.links == db.links + [link]
      && link.id == newId && link.userId == user.id
      && link.botId == user.botId.value && link.token == token && link.campaignId == body.campaignId.value
      && link.campaignName == body.campaignName
      && link.isActive == DefaultActive
      && link.trackingUrl == TrackingUrl(baseUrl, link.botId, link.token, link.campaignId)
    ensures UniqueLinkIds(db.links) ==> UniqueLinkIds(r.db.links)
  {
    if !Present(body.campaignId) then
      Outcome(Response(400, Refused(CampaignRequired)), db)
    else
      var url := TrackingUrl(baseUrl, Interpolate(user.botId), token, body.campaignId.value);
      if insertFails || user.botId.None? || user.id !in db.users || IdTaken(db.links, newId) then
        Outcome(Response(500, Refused(InternalError)), db)
      else
        var link := Link(newId, user.id, body.campaignId.value, body.campaignName, url, user.botId.value, token, DefaultActive);
        Outcome(Response(201, Created(LinkCreated, link)), db.(links := db.links + [link]))
  }

  /** A link just created is found by the public endpoint with the parameters embedded in its
      URL: a click on it answers 200. */
  lemma CreatedLinkIsTrackable(db: Db, user: UserRow, body: CreateBody, baseUrl: Option<string>, token: string, newId: int,
                               client: Track.Client, o: Track.Oracles)
    requires CreateLink(db, user, body, baseUrl, token, newId, false).response.status == 201
    requires Present(user.botId) && token != ""
    requires !o.lookupFails && !o.clickInsertFails
    ensures
      var after := CreateLink(db, user, body, baseUrl, token, newId, false).db;
      var q := Track.Query(user.botId, Some(token), body.campaignId, None);
      && Track.Resolve(after.links, after.users, user.botId.value, token, body.campaignId.value).Some?
      && Track.Handle(after, q, client, o).response == Track.Response(200, Track.Recorded(Track.EventRecorded, body.campaignId.value, Click, o.now))
  {
    var after := CreateLink(db, user, body, baseUrl, token, newId, false).db;
    var i := |after.links| - 1;
    assert Track.Resolvable(after.links[i], after.users, user.botId.value, token, body.campaignId.value);
  }

  /** `Math.ceil(total / limit)` for a positive limit. */
  function CeilDiv(total: nat, limit: int): (pages: nat)
    requires limit > 0
    ensures (pages - 1) * limit < total <= pages * limit
  {
    var q := total / limit;
    if q * limit == total then q else q + 1
  }

  /** `LIMIT limit OFFSET offset` over rows already in order. */
  function Window<T>(rows: seq<T>, offset: nat, limit: nat): (r: seq<T>)
    ensures offset >= |rows| ==> r == []
    ensures offset < |rows| ==> |r| == if limit < |rows| - offset then limit else |rows| - offset
    ensures forall i :: 0 <= i < |r| ==> offset + i < |rows| && r[i] == rows[offset + i]
  {
    if offset >= |rows| then []
    else if limit < |rows| - offset then rows[offset..offset + limit]
    else rows[offset..]
  }

  /** The caller's links, newest first. */
  function OwnedNewestFirst(links: seq<Link>, userId: int): (r: seq<Link>)
    ensures forall l :: l in r <==> l in links && l.userId == userId
    ensures |r| == Count(links, (l: Link) => l.userId == userId)
  {
    FilterLength(links, (l: Link) => l.userId == userId);
    Reverse(Filter(links, (l: Link) => l.userId == userId))
  }

  /** The link inserted last is listed first among its owner's links, and is invisible to
      everyone else; with no links the list is empty. Together these fix the whole order. */
  lemma NewestLinkListedFirst(links: seq<Link>, l: Link, userId: int)
    ensures OwnedNewestFirst([], userId) == []
    ensures l.userId == userId ==> OwnedNewestFirst(links + [l], userId) == [l] + OwnedNewestFirst(links, userId)
    ensures l.userId != userId ==> OwnedNewestFirst(links + [l], userId) == OwnedNewestFirst(links, userId)
  {
    var keep := (k: Link) => k.userId == userId;
    FilterConcat(links, [l], keep);
    assert [l][1..] == [];
    if l.userId == userId {
      assert Filter([l], keep) == [l];
      ReverseAppend(Filter(links, keep), l);
    } else {
      assert Filter([l], keep) == [];
      assert Filter(links, keep) + [] == Filter(links, keep);
    }
  }

  /** `GET /links`: the page `(page - 1) * limit` onwards of the caller's links, and the page count.
      A negative limit or offset is refused by the database (500). */
  function ListLinks(db: Db, user: UserRow, page: Option<int>, limit: Option<int>, queryFails: bool): (r: Outcome)
    ensures r.db == db
    ensures var p := if page.Some? then page.value else DefaultPage;
            var l := if limit.Some? then limit.value else DefaultLimit;
            && (r.response.status == 200 <==> !queryFails && l >= 0 && (p - 1) * l >= 0)
            && (r.response.status != 200 ==> r.response == Response(500, Refused(InternalError)))
            && (r.response.status == 200 ==>
                  && r.response.body.Listed?
                  && var pg := r.response.body.pagination;
                  && pg.page == p && pg.limit == l
                  && pg.total == Count(db.links, (k: Link) => k.userId == user.id)
                  && (l == 0 <==> pg.totalPages.None?)
                  && (l > 0 ==> (pg.totalPages.value - 1) * l < pg.total <= pg.totalPages.value * l)
                  && r.response.body.links == Window(OwnedNewestFirst(db.links, user.id), (p - 1) * l, l))
  {
    var p := if page.Some? then page.value else DefaultPage;
    var l := if limit.Some? then limit.value else DefaultLimit;
    var offset := (p - 1) * l;
    if queryFails || l < 0 || offset < 0 then
      Outcome(Response(500, Refused(InternalError)), db)
    else
      var owned := OwnedNewestFirst(db.links, user.id);
      FilterLength(db.links, (k: Link) => k.userId == user.id);
      var total := |owned|;
      var totalPages := if l == 0 then None else Some(CeilDiv(total, l) as int);
      Outcome(Response(200, Listed(Window(owned, offset, l), Pagination(p, l, total, totalPages))), db)
  }

  /** Multiplying by a non-negative factor keeps an order. */
  lemma MulMonotone(a: int, b: int, c: nat)
    requires a <= b
    ensures a * c <= b * c
  {
    assert b * c - a * c == (b - a) * c;
  }

  /** A page holds links exactly when its number lies between 1 and the page count. */
  lemma PageNonEmptyIffWithinPageCount(rows: seq<Link>, page: int, limit: int)
    requires limit > 0 && page >= 1
    ensures Window(rows, (page - 1) * limit, limit) != [] <==> page <= CeilDiv(|rows|, limit)
  {
    var pages := CeilDiv(|rows|, limit);
    var offset := (page - 1) * limit;
    if page <= pages {
      MulMonotone(page - 1, pages - 1, limit);
      assert offset < |rows|;
      assert Window(rows, offset, limit)[0] == rows[offset];
    } else {
      MulMonotone(pages, page - 1, limit);
      assert offset >= |rows|;
    }
  }

  /** The first link row with this id owned by this user, as the ownership check selects it. */
  function FindOwned(links: seq<Link>, id: int, userId: int): (r: Option<Link>)
    ensures r.Some? <==> exists i :: 0 <= i < |links| && Owns(links[i], id, userId)
    ensures r.Some? ==> r.value in links && Owns(r.value, id, userId)
    ensures r.Some? ==> exists i :: 0 <= i < |links| && links[i] == r.value
                          && forall j :: 0 <= j < i ==> !Owns(links[j], id, userId)
  {
    if links == [] then None
    else if Owns(links[0], id, userId) then Some(links[0])
    else
      var r := FindOwned(links[1..], id, userId);
      assert forall i :: 1 <= i < |links| ==> links[i] == links[1..][i - 1];
      r
  }

  /** `DELETE /links/:id`: only a link of the caller is removed; the database's cascade removes
      the link's events with it. */
  function DeleteLink(db: Db, user: UserRow, id: int, queryFails: bool): (r: Outcome)
    ensures r.db.users == db.users
    ensures queryFails ==> r == Outcome(Response(500, Refused(InternalError)), db)
    ensures !queryFails && FindOwned(db.links, id, user.id).None? ==> r == Outcome(Response(404, Refused(LinkMissing)), db)
    ensures r.response.status == 200 <==> !queryFails && FindOwned(db.links, id, user.id).Some?
    ensures r.response.status == 200 ==>
      && r.response.body == Deleted(LinkDeleted)
      && r.db.links == Filter(db.links, (l: Link) => !Owns(l, id, user.id))
      && (forall l :: l in r.db.links <==> l in db.links && !Owns(l, id, user.id))
      && |r.db.links| == |db.links| - Count(db.links, (l: Link) => Owns(l, id, user.id))
      && r.db.events == CascadeEvents(db.events, id)
      && (forall e :: e in r.db.events <==> e in db.events && e.linkId != id)
      && |r.db.events| == |db.events| - Count(db.events, (e: Event) => e.linkId == id)
      && (forall other :: other != id ==> LinkStats(r.db.events, other) == LinkStats(db.events, other))
    ensures r.response.status != 200 ==> r.db == db
  {
    if queryFails then
      Outcome(Response(500, Refused(InternalError)), db)
    else if FindOwned(db.links, id, user.id).None? then
      Outcome(Response(404, Refused(LinkMissing)), db)
    else
      var keep := (l: Link) => !Owns(l, id, user.id);
      var links := Filter(db.links, keep);
      FilterLength(db.links, keep);
      ComplementCount(db.links, (l: Link) => Owns(l, id, user.id), keep);
      Outcome(Response(200, Deleted(LinkDeleted)), db.(links := links, events := CascadeEvents(db.events, id)))
  }

  /** The event rows left by the `ON DELETE CASCADE` of link `id`: its own rows go, every other
      link keeps all of its rows and therefore its statistics. */
  function CascadeEvents(events: seq<Event>, id: int): (r: seq<Event>)
    ensures forall e :: e in r <==> e in events && e.linkId != id
    ensures |r| == |events| - Count(events, (e: Event) => e.linkId == id)
    ensures forall other :: other != id ==> LinkStats(r, other) == LinkStats(events, other)
  {
    var keep := (e: Event) => e.linkId != id;
    FilterLength(events, keep);
    ComplementCount(events, (e: Event) => e.linkId == id, keep);
    OtherStatsSurviveCascade(events, id);
    Filter(events, keep)
  }

  /** The cascade row by row, in insertion order: an empty table stays empty, and an appended
      row survives, in last position, exactly when it belongs to another link. Together these
      fix the surviving rows, their order and their multiplicity. */
  lemma CascadeAppend(events: seq<Event>, e: Event, id: int)
    ensures CascadeEvents([], id) == []
    ensures CascadeEvents(events + [e], id) == CascadeEvents(events, id) + (if e.linkId == id then [] else [e])
  {
    var keep := (x: Event) => x.linkId != id;
    FilterConcat(events, [e], keep);
    assert [e][1..] == [];
  }

  /** Removing one link's events leaves every other link's statistics as they were. */
  lemma OtherStatsSurviveCascade(events: seq<Event>, id: int)
    ensures forall other :: other != id ==>
      LinkStats(Filter(events, (e: Event) => e.linkId != id), other) == LinkStats(events, other)
  {
    var keep := (e: Event) => e.linkId != id;
    forall other | other != id
      ensures LinkStats(Filter(events, keep), other) == LinkStats(events, other)
    {
      CountFilterAgrees(events, keep, (e: Event) => e.linkId == other);
      CountFilterAgrees(events, keep, (e: Event) => e.linkId == other && e.eventType == Sale);
      SumFilterAgrees(events, keep, (e: Event) => SaleAmount(e, other));
    }
  }

  /** The elements satisfying a predicate and those satisfying its negation add up to all of them. */
  lemma {:induction false} ComplementCount<T>(s: seq<T>, p: T -> bool, q: T -> bool)
    requires forall x :: q(x) == !p(x)
    ensures Count(s, q) == |s| - Count(s, p)
  {
    if s != [] {
      ComplementCount(s[1..], p, q);
    }
  }

  /** Under a primary key at most one row has a given id. */
  lemma OwnedRowIsUnique(links: seq<Link>, id: int, userId: int, i: nat, j: nat)
    requires UniqueLinkIds(links)
    requires i < |links| && j < |links| && Owns(links[i], id, userId) && Owns(links[j], id, userId)
    ensures i == j
  {
  }

  /** With unique ids a successful delete removes exactly one row. */
  lemma DeleteRemovesOneRow(db: Db, user: UserRow, id: int)
    requires UniqueLinkIds(db.links)
    requires DeleteLink(db, user, id, false).response.status == 200
    ensures |DeleteLink(db, user, id, false).db.links| == |db.links| - 1
  {
    var i :| 0 <= i < |db.links| && Owns(db.links[i], id, user.id);
    var p := (l: Link) => Owns(l, id, user.id);
    forall j | 0 <= j < |db.links| && j != i
      ensures !p(db.links[j])
    {
    }
    CountSingle(db.links, p, i);
  }

  /** Every row owned by the caller with this id gets `isActive := active`; the rest are untouched. */
  function SetActive(links: seq<Link>, id: int, userId: int, active: bool): (r: seq<Link>)
    ensures |r| == |links|
    ensures forall i :: 0 <= i < |links| && Owns(links[i], id, userId) ==> r[i] == links[i].(isActive := active)
    ensures forall i :: 0 <= i < |links| && !Owns(links[i], id, userId) ==> r[i] == links[i]
  {
    seq(|links|, i requires 0 <= i < |links| =>
      if Owns(links[i], id, userId) then links[i].(isActive := active) else links[i])
  }

  /** `PATCH /links/:id/toggle`: the caller's link takes the negation of its active flag. */
  function ToggleLink(db: Db, user: UserRow, id: int, queryFails: bool): (r: Outcome)
    ensures r.db.users == db.users && r.db.events == db.events && |r.db.links| == |db.links|
    ensures queryFails ==> r == Outcome(Response(500, Refused(InternalError)), db)
    ensures !queryFails && FindOwned(db.links, id, user.id).None? ==> r == Outcome(Response(404, Refused(LinkMissing)), db)
    ensures r.response.status == 200 <==> !queryFails && FindOwned(db.links, id, user.id).Some?
    ensures r.response.status == 200 ==>
      var before := FindOwned(db.links, id, user.id).value;
      && r.response.body.Toggled?
      && r.response.body.isActive == !before.isActive
      && r.response.body.message == (if r.response.body.isActive then LinkActivated else LinkDeactivated)
      && forall i :: 0 <= i < |db.links| ==>
           r.db.links[i] == if Owns(db.links[i], id, user.id) then db.links[i].(isActive := !before.isActive) else db.links[i]
    ensures r.response.status != 200 ==> r.db == db
  {
    if queryFails then
      Outcome(Response(500, Refused(InternalError)), db)
    else
      match FindOwned(db.links, id, user.id)
      case None => Outcome(Response(404, Refused(LinkMissing)), db)
      case Some(link) =>
        var active := !link.isActive;
        Outcome(Response(200, Toggled(if active then LinkActivated else LinkDeactivated, active)),
                db.(links := SetActive(db.links, id, user.id, active)))
  }

  /** Setting the flag back to the value every owned row had undoes a `SetActive`. */
  lemma SetActiveUndo(links: seq<Link>, id: int, userId: int, active: bool)
    requires forall i :: 0 <= i < |links| && Owns(links[i], id, userId) ==> links[i].isActive == active
    ensures SetActive(SetActive(links, id, userId, !active), id, userId, active) == links
  {
  }

  /** Toggling a link twice gives the database back as it was. */
  lemma ToggleTwiceRestores(db: Db, user: UserRow, id: int)
    requires UniqueLinkIds(db.links)
    requires ToggleLink(db, user, id, false).response.status == 200
    ensures ToggleLink(ToggleLink(db, user, id, false).db, user, id, false).db == db
  {
    var found := FindOwned(db.links, id, user.id).value;
    var a := found.isActive;
    var k :| 0 <= k < |db.links| && db.links[k] == found;
    forall i | 0 <= i < |db.links| && Owns(db.links[i], id, user.id)
      ensures db.links[i].isActive == a
    {
      OwnedRowIsUnique(db.links, id, user.id, i, k);
    }
    var once := SetActive(db.links, id, user.id, !a);
    assert ToggleLink(db, user, id, false).db == db.(links := once);
    var again := FindOwned(once, id, user.id).value;
    var k' :| 0 <= k' < |once| && once[k'] == again;
    assert Owns(db.links[k'], id, user.id);
    assert again.isActive == !a;
    SetActiveUndo(db.links, id, user.id, a);
  }

  /** The sales amount of one link: `SUM(CASE WHEN event_type = 'sale' THEN sale_value ELSE 0 END)`. */
  function SaleAmount(e: Event, id: int): real {
    if e.linkId == id && e.eventType == Sale && e.saleValue.Some? then e.saleValue.value else 0.0
  }

  /** The statistics of one link over the event rows. */
  function LinkStats(events: seq<Event>, id: int): (r: Stats)
    ensures r.totalEvents == 0 <==> forall i :: 0 <= i < |events| ==> events[i].linkId != id
    ensures r.totalSales == 0 <==> forall i :: 0 <= i < |events| ==> !(events[i].linkId == id && events[i].eventType == Sale)
    ensures r.totalEvents <= |events|
  {
    Stats(
      Count(events, (e: Event) => e.linkId == id),
      Count(events, (e: Event) => e.linkId == id && e.eventType == Sale),
      Sum(events, (e: Event) => SaleAmount(e, id)))
  }

  /** `GET /links/:id/stats`: 404 unless the caller owns the link. */
  function StatsRoute(db: Db, user: UserRow, id: int, queryFails: bool): (r: Outcome)
    ensures r.db == db
    ensures queryFails ==> r.response == Response(500, Refused(InternalError))
    ensures !queryFails && FindOwned(db.links, id, user.id).None? ==> r.response == Response(404, Refused(LinkMissing))
    ensures r.response.status == 200 <==> !queryFails && FindOwned(db.links, id, user.id).Some?
    ensures r.response.status == 200 ==>
      && r.response.body.Reported?
      && r.response.body.link == FindOwned(db.links, id, user.id).value
      && r.response.body.stats == LinkStats(db.events, id)
      && Owns(r.response.body.link, id, user.id)
      && r.response.body.stats.totalSales <= r.response.body.stats.totalEvents
  {
    if queryFails then
      Outcome(Response(500, Refused(InternalError)), db)
    else
      match FindOwned(db.links, id, user.id)
      case None => Outcome(Response(404, Refused(LinkMissing)), db)
      case Some(link) =>
        SalesAmongEvents(db.events, id);
        Outcome(Response(200, Reported(link, LinkStats(db.events, id))), db)
  }

  /** A link has no more sales than events. */
  lemma {:induction false} SalesAmongEvents(events: seq<Event>, id: int)
    ensures LinkStats(events, id).totalSales <= LinkStats(events, id).totalEvents
  {
    if events != [] {
      SalesAmongEvents(events[1..], id);
    }
  }

  /** A click followed by a sale of one link adds two events, one sale and the sale's amount
      to that link's statistics. */
  lemma StatsAfterClickAndSale(events: seq<Event>, click: Event, sale: Event, id: int, amount: real)
    requires click.linkId == id && click.eventType == Click
    requires sale.linkId == id && sale.eventType == Sale && sale.saleValue == Some(amount)
    ensures var before := LinkStats(events, id);
            LinkStats(events + [click, sale], id) == Stats(before.totalEvents + 2, before.totalSales + 1, before.totalValue + amount)
  {
    var all := (e: Event) => e.linkId == id;
    var sales := (e: Event) => e.linkId == id && e.eventType == Sale;
    var value := (e: Event) => SaleAmount(e, id);
    CountConcat(events, [click, sale], all);
    CountConcat(events, [click, sale], sales);
    SumConcat(events, [click, sale], value);
    assert [click, sale][1..] == [sale];
    assert [sale][1..] == [];
    assert Sum([sale], value) == amount;
    assert Sum([click, sale], value) == amount;
  }

  /** A sale recorded by the public endpoint shows in the link's statistics: two more events,
      one more sale, and the amount added to the total. */
  lemma SaleShowsInStats(db: Db, q: Track.Query, client: Track.Client, o: Track.Oracles)
    requires Track.Handle(db, q, client, o).response.status == 200
    requires Track.Handle(db, q, client, o).response.body.eventType == Sale
    ensures Track.Complete(q) && !o.lookupFails
    ensures var found := Track.Resolve(db.links, db.users, q.botId.value, q.token.value, q.campaign.value);
            && found.Some?
            && var id := found.value.link.id;
            && var before := LinkStats(db.events, id);
            && var after := LinkStats(Track.Handle(db, q, client, o).db.events, id);
            && after.totalEvents == before.totalEvents + 2
            && after.totalSales == before.totalSales + 1
            && after.totalValue == before.totalValue + o.parseAmount(q.saleValue.value).value
  {
    var r := Track.Handle(db, q, client, o);
    var found := Track.Resolve(db.links, db.users, q.botId.value, q.token.value, q.campaign.value).value;
    var n := |db.events|;
    var click := r.db.events[n];
    var sale := r.db.events[n + 1];
    assert r.db.events == db.events + [click, sale];
    StatsAfterClickAndSale(db.events, click, sale, found.link.id, o.parseAmount(q.saleValue.value).value);
  }
}

=== FILE: tracking_slice.dfy ===
/** The frontend's `tracking` state slice: the user's links plus loading and error flags for
    listing and for creating. Reducers are pure transitions `State x Action -> State`; the
    asynchronous thunks that dispatch the actions are not part of this model. */
module TrackingSlice {
  import opened Common

  /** A link as the frontend holds it: its id, and whatever else the server sent. */
  datatype LinkItem = LinkItem(id: int, fields: JsVal)

  datatype State = State(links: seq<LinkItem>, loading: bool, error: JsVal, createLoading: bool, createError: JsVal)

  /** The actions the slice handles. Fulfilled payloads are already unwrapped (`payload.data`
      for create, fetch and toggle; the link id for delete); `Unhandled` is any other action,
      including the pending and rejected phases of delete and toggle. */
  datatype Action =
    | ClearError
    | ClearCreateError
    | CreatePending
    | CreateFulfilled(link: LinkItem)
    | CreateRejected(payload: JsVal)
    | FetchPending
    | FetchFulfilled(links: seq<LinkItem>)
    | FetchRejected(payload: JsVal)
    | DeleteFulfilled(id: int)
    | ToggleFulfilled(link: LinkItem)
    | Unhandled

  /** The state before any action. */
  function Initial(): (s: State)
    ensures s.links == [] && !s.loading && !s.createLoading && s.error == JNull && s.createError == JNull
  {
    State([], false, JNull, false, JNull)
  }

  /** `findIndex` by id: the first position holding that id. */
  function FindIndex(links: seq<LinkItem>, id: int): (r: Option<nat>)
    ensures r.Some? ==> r.value < |links| && links[r.value].id == id
    ensures r.Some? ==> forall j :: 0 <= j < r.value ==> links[j].id != id
    ensures r.None? ==> forall j :: 0 <= j < |links| ==> links[j].id != id
  {
    if links == [] then None
    else if links[0].id == id then Some(0)
    else
      match FindIndex(links[1..], id)
      case None => None
      case Some(i) => Some(i + 1)
  }

  /** The slice's reducer. */
  function Reduce(s: State, a: Action): (r: State)
    ensures a.ClearError? ==>
      r.links == s.links && r.loading == s.loading && r.createLoading == s.createLoading
      && r.error == JNull && r.createError == JNull
    ensures a.ClearCreateError? ==> r == s.(createError := JNull)
    ensures a.CreatePending? ==> r == s.(createLoading := true, createError := JNull)
    ensures a.CreateFulfilled? ==>
      && |r.links| == |s.links| + 1 && r.links[0] == a.link && r.links[1..] == s.links
      && !r.createLoading
      && r.loading == s.loading && r.error == s.error && r.createError == s.createError
    ensures a.CreateRejected? ==> r == s.(createLoading := false, createError := a.payload)
    ensures a.FetchPending? ==> r == s.(loading := true, error := JNull)
    ensures a.FetchFulfilled? ==> r == s.(loading := false, links := a.links)
    ensures a.FetchRejected? ==> r == s.(loading := false, error := a.payload)
    ensures a.DeleteFulfilled? ==>
      && (forall l :: l in r.links <==> l in s.links && l.id != a.id)
      && r.(links := s.links) == s
    ensures a.ToggleFulfilled? ==>
      && |r.links| == |s.links|
      && r.(links := s.links) == s
      && match FindIndex(s.links, a.link.id)
         case None => r == s
         case Some(i) => r.links[i] == a.link && forall j :: 0 <= j < |s.links| && j != i ==> r.links[j] == s.links[j]
    ensures a.Unhandled? ==> r == s
  {
    match a
    case ClearError => s.(error := JNull, createError := JNull)
    case ClearCreateError => s.(createError := JNull)
    case CreatePending => s.(createLoading := true, createError := JNull)
    case CreateFulfilled(link) => s.(createLoading := false, links := [link] + s.links)
    case CreateRejected(payload) => s.(createLoading := false, createError := payload)
    case FetchPending => s.(loading := true, error := JNull)
    case FetchFulfilled(links) => s.(loading := false, links := links)
    case FetchRejected(payload) => s.(loading := false, error := payload)
    case DeleteFulfilled(id) => s.(links := Filter(s.links, (l: LinkItem) => l.id != id))
    case ToggleFulfilled(link) =>
      (match FindIndex(s.links, link.id)
       case None => s
       case Some(i) => s.(links := s.links[i := link]))
    case Unhandled => s
  }

  /** Deleting keeps the surviving links in their order: deleting from a concatenation
      deletes from each part. */
  lemma DeleteKeepsOrder(s: State, front: seq<LinkItem>, back: seq<LinkItem>, id: int)
    requires s.links == front + back
    ensures Reduce(s, DeleteFulfilled(id)).links
         == Reduce(s.(links := front), DeleteFulfilled(id)).links + Reduce(s.(links := back), DeleteFulfilled(id)).links
  {
    FilterConcat(front, back, (l: LinkItem) => l.id != id);
  }

  /** Deleting the same id twice is the same as deleting it once. */
  lemma DeleteIdempotent(s: State, id: int)
    ensures Reduce(Reduce(s, DeleteFulfilled(id)), DeleteFulfilled(id)) == Reduce(s, DeleteFulfilled(id))
  {
    FilterIdempotent(s.links, (l: LinkItem) => l.id != id);
  }

  /** Deleting a link that was just created under a fresh id gives back the previous links. */
  lemma CreateThenDeleteRestoresLinks(s: State, link: LinkItem)
    requires forall i :: 0 <= i < |s.links| ==> s.links[i].id != link.id
    ensures Reduce(Reduce(s, CreateFulfilled(link)), DeleteFulfilled(link.id)).links == s.links
  {
    var keep := (l: LinkItem) => l.id != link.id;
    FilterConcat([link], s.links, keep);
    assert Filter([link], keep) == [];
    FilterKeepsAll(s.links, keep);
  }

  /** Applying the same toggle result twice is the same as applying it once. */
  lemma ToggleIdempotent(s: State, link: LinkItem)
    ensures Reduce(Reduce(s, ToggleFulfilled(link)), ToggleFulfilled(link)) == Reduce(s, ToggleFulfilled(link))
  {
    var once := Reduce(s, ToggleFulfilled(link));
    match FindIndex(s.links, link.id)
    case None =>
    case Some(i) =>
      assert FindIndex(once.links, link.id) == Some(i);
  }

  /** Clearing every error makes clearing the create error first irrelevant. */
  lemma ClearErrorAbsorbsClearCreateError(s: State)
    ensures Reduce(Reduce(s, ClearCreateError), ClearError) == Reduce(s, ClearError)
  {
  }
}

=== FILE: utmify.dfy ===
/** The client of the external attribution platform: `sendToUtmify` and `testUtmifyConnection`.
    The platform's address and key come from the environment; the HTTP exchange itself is an
    input (`HttpReply`), so each function is total and says which request it would issue. */
module Utmify {
  import opened Common

  /** The two environment variables the client reads. */
  datatype Config = Config(apiUrl: Option<string>, apiKey: Option<string>)

  datatype HttpMethod = Get | Post

  /** An outbound HTTP request as the client would hand it to the transport. */
  datatype HttpRequest = HttpRequest(
    verb: HttpMethod,
    url: string,
    authorization: string,
    contentType: Option<string>,
    timeoutMs: nat,
    body: seq<(string, JsVal)>)

  /** What the transport does with a request: the promise resolves with a response
      (a 2xx status under the transport's default policy) or rejects with an error message
      (non-2xx status, timeout, connection failure). */
  datatype HttpReply = Responded(status: int, data: JsVal) | Rejected(message: string)

  /** The record `sendToUtmify` resolves to: `{success: true, data}` or `{success: false, error}`. */
  datatype SendOutcome = Delivered(data: JsVal) | Undelivered(error: string) {
    predicate Success() { Delivered? }

    /** The record as a JavaScript object, as it is stored on the sale row. */
    function ToJs(): (v: JsVal)
      ensures v.JObject? && |v.fields| == 2 && v.fields[0] == ("success", JBool(Success()))
    {
      match this
      case Delivered(d) => JObject([("success", JBool(true)), ("data", d)])
      case Undelivered(e) => JObject([("success", JBool(false)), ("error", JStr(e))])
    }
  }

  /** The request `sendToUtmify` issued, if any, and what it resolved to. */
  datatype Send = Send(request: Option<HttpRequest>, outcome: SendOutcome)

  /** The record `testUtmifyConnection` resolves to: `{success: true, status}` or `{success: false, error}`. */
  datatype ProbeOutcome = Reachable(status: int) | Unreachable(error: string)

  datatype Probe = Probe(request: Option<HttpRequest>, outcome: ProbeOutcome)

  const SendConfigMissing: string := "Configurações do UTMify não encontradas"
  const ProbeConfigMissing: string := "Configurações não encontradas"
  const SalesPath: string := "/api/sales"
  const HealthPath: string := "/health"
  const SendTimeoutMs: nat := 10000
  const ProbeTimeoutMs: nat := 5000

  /** The fields of the forwarded payload, in the order they are written. */
  const PayloadKeys: seq<string> := ["bot_id", "sale_value", "campaign_id", "status", "timestamp", "user_token"]

  /** Both environment variables are set to non-empty strings. */
  predicate Configured(cfg: Config) {
    Present(cfg.apiUrl) && Present(cfg.apiKey)
  }

  /** Reading a property of a JavaScript object: `undefined` when it is missing. */
  function Prop(obj: map<string, JsVal>, key: string): JsVal {
    if key in obj then obj[key] else JUndefined
  }

  /** The payload object: the six known fields copied from the input, nothing else. */
  function Payload(data: map<string, JsVal>): (p: seq<(string, JsVal)>)
    ensures |p| == |PayloadKeys|
    ensures forall i :: 0 <= i < |p| ==> p[i].0 == PayloadKeys[i] && p[i].1 == Prop(data, PayloadKeys[i])
    ensures forall k :: k in data && k !in PayloadKeys ==> forall i :: 0 <= i < |p| ==> p[i].0 != k
  {
    [ ("bot_id", Prop(data, "bot_id")),
      ("sale_value", Prop(data, "sale_value")),
      ("campaign_id", Prop(data, "campaign_id")),
      ("status", Prop(data, "status")),
      ("timestamp", Prop(data, "timestamp")),
      ("user_token", Prop(data, "user_token")) ]
  }

  /** `sendToUtmify(data)`: never throws; a missing configuration fails without a request,
      otherwise one POST is issued and the outcome mirrors whether it resolved. */
  function SendToUtmify(cfg: Config, data: map<string, JsVal>, reply: HttpReply): (r: Send)
    ensures r.outcome.Success() <==> Configured(cfg) && reply.Responded?
    ensures !Configured(cfg) ==> r.request.None? && r.outcome == Undelivered(SendConfigMissing)
    ensures Configured(cfg) ==>
      && r.request.Some?
      && r.request.value.verb == Post
      && r.request.value.url == cfg.apiUrl.value + SalesPath
      && r.request.value.authorization == "Bearer " + cfg.apiKey.value
      && r.request.value.contentType == Some("application/json")
      && r.request.value.timeoutMs == SendTimeoutMs
      && r.request.value.body == Payload(data)
    ensures Configured(cfg) && reply.Responded? ==> r.outcome == Delivered(reply.data)
    ensures Configured(cfg) && reply.Rejected? ==> r.outcome == Undelivered(reply.message)
  {
    if !Present(cfg.apiUrl) || !Present(cfg.apiKey) then
      Send(None, Undelivered(SendConfigMissing))
    else
      var request := HttpRequest(
        Post, cfg.apiUrl.value + SalesPath, "Bearer " + cfg.apiKey.value,
        Some("application/json"), SendTimeoutMs, Payload(data));
      match reply
      case Responded(_, body) => Send(Some(request), Delivered(body))
      case Rejected(message) => Send(Some(request), Undelivered(message))
  }

  /** `testUtmifyConnection()`: never throws; a missing configuration fails without a request,
      otherwise one GET of the health path is issued. */
  function TestConnection(cfg: Config, reply: HttpReply): (r: Probe)
    ensures r.outcome.Reachable? <==> Configured(cfg) && reply.Responded?
    ensures !Configured(cfg) ==> r.request.None? && r.outcome == Unreachable(ProbeConfigMissing)
    ensures Configured(cfg) ==>
      && r.request.Some?
      && r.request.value.verb == Get
      && r.request.value.url == cfg.apiUrl.value + HealthPath
      && r.request.value.authorization == "Bearer " + cfg.apiKey.value
      && r.request.value.timeoutMs == ProbeTimeoutMs
      && r.request.value.body == []
    ensures Configured(cfg) && reply.Responded? ==> r.outcome == Reachable(reply.status)
    ensures Configured(cfg) && reply.Rejected? ==> r.outcome == Unreachable(reply.message)
  {
    if !Present(cfg.apiUrl) || !Present(cfg.apiKey) then
      Probe(None, Unreachable(ProbeConfigMissing))
    else
      var request := HttpRequest(
        Get, cfg.apiUrl.value + HealthPath, "Bearer " + cfg.apiKey.value, None, ProbeTimeoutMs, []);
      match reply
      case Responded(status, _) => Probe(Some(request), Reachable(status))
      case Rejected(message) => Probe(Some(request), Unreachable(message))
  }

  /** Without configuration nothing is sent, so the transport's behaviour cannot matter. */
  lemma UnconfiguredIgnoresTransport(cfg: Config, data: map<string, JsVal>, a: HttpReply, b: HttpReply)
    requires !Configured(cfg)
    ensures SendToUtmify(cfg, data, a) == SendToUtmify(cfg, data, b)
    ensures TestConnection(cfg, a) == TestConnection(cfg, b)
  {
  }

  /** The forwarded payload depends on the six known fields only: extra input fields are dropped. */
  lemma PayloadIgnoresExtraFields(data: map<string, JsVal>, k: string, v: JsVal)
    requires k !in PayloadKeys
    ensures Payload(data[k := v]) == Payload(data)
  {
  }

  /** The sale client and the health probe agree on whether the platform is configured. */
  lemma ProbeAgreesWithSend(cfg: Config, data: map<string, JsVal>, reply: HttpReply)
    ensures SendToUtmify(cfg, data, reply).request.None? <==> TestConnection(cfg, reply).request.None?
    ensures SendToUtmify(cfg, data, reply).outcome.Success() <==> TestConnection(cfg, reply).outcome.Reachable?
  {
  }
}
